=== FILE: README.md ===
# Agora ticket payment and event registry storage, in Dafny

This project models the on-chain ticket payment and escrow engine of Agora,
`contract/contracts/ticket_payment/src/contract.rs`, and the storage helpers
of the Event Registry contract, `contract/contracts/event_registry/src/storage.rs`.

The payment contract is modelled as a functional state machine.
- Its persistent storage is one immutable `TicketPayment.State`. The state holds:
  - the configuration (admin, USDC token, platform wallet, registry);
  - the token whitelist;
  - the payment records;
  - the per-event escrow balances;
  - the buyer index;
  - the per-event transfer fees.
- Each entry point is a pure function. It returns an `Outcome`, which is one of:
  - a new state with the return value and the token or registry calls the entry point makes;
  - one of the contract's typed errors;
  - an abort, which covers a panic, a failed `require_auth` or an i128 overflow.

Soroban rolls back a failed invocation, so neither failure kind carries a state.
The host and the other contracts are parameters:
- `Env` supplies the contract's own address, the single authorising principal and the ledger time.
- The registry's `get_event` answer is passed as an `Option<EventInfo>`.
- The token contract's allowance and the observed balance change are passed as integers.

The model files:

- `common.dfy`: i128 and u32 ranges, basis points, `Option`, and Rust's truncating division.
- `fees.dfy`: the platform-fee split of a purchase total and the per-ticket shares.
- `escrow.dfy`: the per-event escrow entry and its three transitions: credit, organizer payout, and platform payout. It also holds the milestone release rule and escrow runs.
- `ledger.dfy`: payment records, sub-payment keys and the buyer index lists.
- `registry_types.dfy`, `registry_storage.dfy`: the registry's records and storage helpers.
- `ticket_payment.dfy`: the contract's entry points.
- `ticket_payment_props.dfy`: cross-call properties:
  - the storage invariant kept by every call and every trace;
  - each call as an escrow transition, and escrow conservation over any trace;
  - the scenarios the contract promises.

Throughout, `organizerAmount + totalWithdrawn` of an escrow entry is the
organizer's lifetime revenue. `withdraw_organizer_funds` computes the same sum
as `total_revenue`.

The payment storage helpers (`store_payment`, `update_payment_status`,
`update_event_balance`, the buyer index helpers) live in
`ticket_payment/src/storage.rs`, which is not part of this model. They are
modelled by their evident meaning:
- `store_payment` writes the record and adds its id to its buyer's list unless the id is already there.
- `update_payment_status` rewrites a stored record's status and time, and does nothing for an unknown id.
- `update_event_balance` adds to the entry, which reads as all zeros when absent.
- An unset transfer fee reads as 0.
- Reading the registry address before initialisation traps.

## Model

| member | source | states |
|---|---|---|
| Common.DivTrunc | contract/contracts/ticket_payment/src/contract.rs:206 | Rust's signed `/` rounds toward zero: the quotient has the dividend's sign and is no larger in magnitude |
| Common.DivTruncBrackets | contract/contracts/ticket_payment/src/contract.rs:436 | the truncated quotient times the divisor lies within one divisor of the dividend, on the zero side |
| Fees.SplitTotal | contract/contracts/ticket_payment/src/contract.rs:205-207 | the platform fee and the organizer amount add up to the purchase total exactly, and both lie in [0, total] for a rate of at most 100% |
| Fees.SplitTotalRounding | contract/contracts/ticket_payment/src/contract.rs:206 | the fee is the basis-point share of a non-negative total rounded down: fee*10000 <= total*bps < (fee+1)*10000 |
| Fees.PerTicket | contract/contracts/ticket_payment/src/contract.rs:248-249 | a per-ticket share has the sign of the purchase-wide amount and does not exceed it |
| Fees.PerTicketBrackets | contract/contracts/ticket_payment/src/contract.rs:248-249 | the per-ticket share times the quantity lies within one unit per ticket of the amount, on the zero side, for positive and negative amounts alike, as truncating division gives |
| Fees.SplitExamples | contract/contracts/ticket_payment/src/test.rs:197-209 | 250 bps of 10000 is a fee of 250 and an organizer amount of 9750 |
| Fees.PerTicketSharesWithinTotals | contract/contracts/ticket_payment/src/contract.rs:237-249 | for registry fee rates of at most 10000 bps: summed over a purchase's tickets, the per-ticket fee and organizer shares never exceed the credited totals, and each falls short by less than one unit per ticket |
| Escrow.Credit | contract/contracts/ticket_payment/src/contract.rs:237-242 | crediting raises lifetime revenue by the organizer delta and the platform share by the platform delta, leaves the paid-out total alone, and keeps a non-negative entry non-negative when credited with non-negative deltas |
| Escrow.PayOrganizer | contract/contracts/ticket_payment/src/contract.rs:453-461 | a payout moves funds from the held share to the paid-out total: lifetime revenue and platform share unchanged, paid-out total up by the payout |
| Escrow.ClearPlatformFee | contract/contracts/ticket_payment/src/contract.rs:487-495 | the platform share becomes 0 and the organizer counters are untouched |
| Escrow.HighestMet | contract/contracts/ticket_payment/src/contract.rs:423-430 | the result is an upper bound of the release percentages of the met milestones and, when positive, is the percentage of one of them |
| Escrow.ReleasePercent | contract/contracts/ticket_payment/src/contract.rs:421-434 | no plan or an empty plan releases 10000 bps; otherwise the result is the largest percentage among the met milestones, or 0 when none is met |
| Escrow.Unlocked | contract/contracts/ticket_payment/src/contract.rs:436-437 | for non-negative revenue, the amount still owed is revenue times the release percent rounded down to whole units, less what was paid out; it never exceeds the held share at a rate of at most 100%, and a full release unlocks exactly the held share |
| Escrow.OrganizerPayout | contract/contracts/ticket_payment/src/contract.rs:415-445 | the payout is 0 without revenue; a non-zero payout is within both the held share and the unlocked amount (revenue*pct/10000 less what was paid out); for a non-negative entry with revenue it is exactly the unlocked amount capped by the held share, and never negative |
| Escrow.SecondPayoutIsZero | contract/contracts/ticket_payment/src/contract.rs:436-461 | after one payout, the same percentage unlocks nothing more: the unlocked amount falls by exactly the payout |
| Escrow.MilestoneScenario | contract/contracts/ticket_payment/src/contract.rs:421-445 | with plan 100→20%, 500→50%, 1000→100% and 1000 of revenue: 99 sold pays 0, 100 sold pays 200, 1000 sold pays 1000 |
| Escrow.RunConservesOrganizerFunds | contract/contracts/ticket_payment/src/contract.rs:453-461 | over any sequence of credits and payouts, the held share plus the paid-out total grows by exactly the organizer amounts credited |
| Escrow.RunKeepsBalancesSound | contract/contracts/ticket_payment/src/contract.rs:443-458 | with non-negative credits no counter goes negative and the paid-out total never decreases |
| PaymentLedger.SubPaymentIdsCollide | contract/contracts/ticket_payment/src/contract.rs:254-265 | the fixed sub-payment keys collide: the sixth and seventh ticket of a purchase share a key, and so do the first tickets of any two multi-ticket purchases |
| PaymentLedger.AddToIndex | contract/contracts/ticket_payment/src/contract.rs:578 | adding an id keeps the list's prefix, adds at most one entry, contains exactly the old ids plus the new one, and keeps the list duplicate-free |
| PaymentLedger.RemoveFromIndex | contract/contracts/ticket_payment/src/contract.rs:577 | removing an id leaves exactly the other ids in their order, keeps the list duplicate-free, and changes nothing when the id is absent |
| PaymentLedger.RemoveFromIndexDropsOne | contract/contracts/ticket_payment/src/contract.rs:577 | removing an id listed once shortens the list by exactly one |
| RegistryStorage.SetAdmin | contract/contracts/event_registry/src/storage.rs:5-7 | afterwards the admin reads back as set, and nothing else changes |
| RegistryStorage.GetAdmin | contract/contracts/event_registry/src/storage.rs:10-12 | the administrator is present exactly when one was stored, and is the stored address |
| RegistryStorage.SetPlatformFee | contract/contracts/event_registry/src/storage.rs:15-17 | afterwards the fee is present and reads back as set, and nothing else changes |
| RegistryStorage.GetPlatformFee | contract/contracts/event_registry/src/storage.rs:20-25 | the stored fee when one was set, otherwise 0 |
| RegistryStorage.HasPlatformFee | contract/contracts/event_registry/src/storage.rs:28-30 | true exactly when a fee was stored |
| RegistryStorage.GetEvent | contract/contracts/event_registry/src/storage.rs:64-66 | a record is returned exactly when one is stored under the id, and it is the stored record |
| RegistryStorage.EventExists | contract/contracts/event_registry/src/storage.rs:68-71 | an event exists exactly when `get_event` returns a record |
| RegistryStorage.GetOrganizerEvents | contract/contracts/event_registry/src/storage.rs:74-79 | the stored list of the organizer's event ids; an organizer never seen has the empty list |
| RegistryStorage.ContainsEventId | contract/contracts/event_registry/src/storage.rs:47-53 | the duplicate scan reports true exactly when the id is in the list |
| RegistryStorage.StoreEvent | contract/contracts/event_registry/src/storage.rs:34-61 | the record is stored under its id and no other id changes; the id is then in its organizer's list, which keeps its old entries in order and grows by at most that id; other organizers' lists, admin and fee are untouched; no list gains a duplicate |
| RegistryStorage.StoreEventIdempotent | contract/contracts/event_registry/src/storage.rs:46-60 | storing the same record twice equals storing it once, so repeated stores add no duplicate |
| RegistryStorage.StoreEventAppendsNewId | contract/contracts/event_registry/src/storage.rs:55-60 | a new id is appended at the end of the organizer's list; an id already listed leaves the list as it was |
| RegistryStorage.StoreEventOverwrites | contract/contracts/event_registry/src/storage.rs:39-41 | the last record stored under an id is the one `get_event` returns |
| RegistryStorage.ReassignedEventStaysInOldList | contract/contracts/event_registry/src/storage.rs:43-60 | re-storing an event under another organizer lists it under both organizers |
| RegistryStorage.WritesLeaveOtherKeys | contract/contracts/event_registry/src/storage.rs:5-66 | each storage key is independent: setting the admin or fee, or storing an event, leaves the other getters' answers unchanged |
| RegistryStorage.EmptyStoreDefaults | contract/contracts/event_registry/src/storage.rs:20-30 | before any write the fee reads 0 and is absent, organizer lists are empty and no event exists |
| TicketPayment.StorePayment | contract/contracts/ticket_payment/src/contract.rs:281 | the record is written under its id and the id is listed for its buyer, with other buyers' lists untouched and the list invariants kept |
| TicketPayment.Initialize | contract/contracts/ticket_payment/src/contract.rs:85-120 | a second call returns AlreadyInitialized; any configured address equal to the contract's own returns InvalidAddress; success happens exactly otherwise and stores the configuration and whitelists the USDC token |
| TicketPayment.AddToken | contract/contracts/ticket_payment/src/contract.rs:143-147 | traps without an admin; succeeds exactly for the admin; whitelists the token and changes nothing else |
| TicketPayment.RemoveToken | contract/contracts/ticket_payment/src/contract.rs:149-153 | traps without an admin; succeeds exactly for the admin; de-lists the token and changes nothing else |
| TicketPayment.IsTokenAllowed | contract/contracts/ticket_payment/src/contract.rs:155-157 | true exactly for the whitelisted tokens |
| TicketPayment.StoreTickets | contract/contracts/ticket_payment/src/contract.rs:251-282 | every ticket's record is stored under its key with that key as its id; the buyer's list keeps its earlier ids and gains exactly the ticket keys; other records, other buyers and the escrow are untouched |
| TicketPayment.CommitPurchase | contract/contracts/ticket_payment/src/contract.rs:236-282 | the event's escrow is credited by exactly the organizer and platform totals with other events untouched, and one Pending record per ticket carries the per-ticket shares; the buyer's list keeps its earlier ids and gains exactly the ticket keys, and other buyers' lists are untouched |
| TicketPayment.ProcessPayment | contract/contracts/ticket_payment/src/contract.rs:160-298 | success requires initialisation, the buyer's signature, a positive amount and quantity, a whitelisted token, an in-range total, an active event, enough allowance and the full amount received; it then returns the payment id and commits the purchase with an exact fee split, pulling the total and incrementing inventory |
| TicketPayment.PurchaseAcceptedSucceeds | contract/contracts/ticket_payment/src/contract.rs:170-242 | conversely, every purchase meeting those conditions succeeds |
| TicketPayment.ConfirmPayment | contract/contracts/ticket_payment/src/contract.rs:301-330 | succeeds exactly when initialised; an unknown id changes nothing; a stored payment becomes Confirmed with the reference and time recorded, every other field and record unchanged; every buyer's list keeps its ids, and the holder's list also holds the confirmed id |
| TicketPayment.RequestGuestRefund | contract/contracts/ticket_payment/src/contract.rs:332-386 | succeeds exactly for the holder of a stored, not yet refunded or failed payment whose tier exists and is refundable or whose event is inactive; the payment becomes Refunded at the call time, inventory is decremented; the escrow and whitelist are untouched; every buyer's list keeps its ids, and the holder's list also holds the refunded id |
| TicketPayment.GetPaymentStatus | contract/contracts/ticket_payment/src/contract.rs:389-391 | a record is returned exactly when one is stored under the id; it is the stored record and, under the storage invariant, carries that id |
| TicketPayment.GetEventEscrowBalance | contract/contracts/ticket_payment/src/contract.rs:394-396 | the event's escrow entry, all zeros for an event never credited |
| TicketPayment.GetBuyerPayments | contract/contracts/ticket_payment/src/contract.rs:501-503 | the buyer's listed ids, empty for a buyer never indexed, and duplicate-free under the storage invariant |
| TicketPayment.WithdrawOrganizerFunds | contract/contracts/ticket_payment/src/contract.rs:399-464 | only the organizer of a found event succeeds, and for that organizer it succeeds exactly when the revenue, its scaling by the release percent and the unlocked amount fit in i128; the payout is the organizer payout under the event's release percent, within the held share; lifetime revenue and platform share are unchanged; the paid-out total grows by the payout; other events are untouched |
| TicketPayment.WithdrawPlatformFees | contract/contracts/ticket_payment/src/contract.rs:467-498 | NotInitialized without an admin; succeeds exactly for the admin; returns the whole platform share and zeroes it, organizer counters untouched |
| TicketPayment.SetTransferFee | contract/contracts/ticket_payment/src/contract.rs:506-531 | succeeds exactly for the organizer of a found event with a non-negative fee; a negative fee traps; only that event's fee changes |
| TicketPayment.HandOver | contract/contracts/ticket_payment/src/contract.rs:576-579 | the id leaves the old holder's list and joins the new holder's; their other ids and every other list are unchanged |
| TicketPayment.HandOverKeepsNoDuplicates | contract/contracts/ticket_payment/src/contract.rs:576-579 | handing an id over keeps every list duplicate-free |
| TicketPayment.MoveTicket | contract/contracts/ticket_payment/src/contract.rs:571-579 | the record's holder becomes the new owner and the id moves between the two holders' lists; nothing else changes |
| TicketPayment.TransferTicket | contract/contracts/ticket_payment/src/contract.rs:534-593 | an unknown payment gives PaymentNotFound; only the holder of a Confirmed ticket, handing it to someone else, succeeds (InvalidPaymentStatus and InvalidAddress otherwise), and such a transfer succeeds exactly when the fee credit fits in i128; the holder becomes `to` and the index moves; a positive fee is pulled from the holder and credited wholly to the organizer's share |
| TicketPaymentProperties.DeployedIsValid | contract/contracts/ticket_payment/src/contract.rs:85-108 | freshly deployed storage satisfies the storage invariant |
| TicketPaymentProperties.ProcessPaymentKeepsValid | contract/contracts/ticket_payment/src/contract.rs:236-282 | a purchase keeps the storage invariant when the registry's fee rate is at most 100% |
| TicketPaymentProperties.ConfirmPaymentKeepsValid | contract/contracts/ticket_payment/src/contract.rs:301-317 | a confirmation keeps the storage invariant |
| TicketPaymentProperties.RequestGuestRefundKeepsValid | contract/contracts/ticket_payment/src/contract.rs:365-371 | a refund keeps the storage invariant |
| TicketPaymentProperties.WithdrawOrganizerFundsKeepsValid | contract/contracts/ticket_payment/src/contract.rs:436-461 | an organizer withdrawal keeps the storage invariant, in particular no counter goes negative |
| TicketPaymentProperties.WithdrawPlatformFeesKeepsValid | contract/contracts/ticket_payment/src/contract.rs:475-497 | a platform withdrawal keeps the storage invariant |
| TicketPaymentProperties.SetTransferFeeKeepsValid | contract/contracts/ticket_payment/src/contract.rs:525-529 | setting a transfer fee keeps every transfer fee non-negative |
| TicketPaymentProperties.TransferTicketKeepsValid | contract/contracts/ticket_payment/src/contract.rs:557-579 | a ticket transfer keeps the storage invariant |
| TicketPaymentProperties.NextKeepsValid | contract/contracts/ticket_payment/src/contract.rs:83-594 | for registry fee rates of at most 10000 bps, every committed call keeps the storage invariant |
| TicketPaymentProperties.ReplayKeepsValid | contract/contracts/ticket_payment/src/contract.rs:83-594 | for registry fee rates of at most 10000 bps, from a valid state, in particular a fresh deployment, no sequence of calls breaks the storage invariant |
| TicketPaymentProperties.ProcessPaymentIsEscrowStep | contract/contracts/ticket_payment/src/contract.rs:237-242 | a purchase moves its event's escrow entry by exactly the deposit of its split and leaves every other entry alone |
| TicketPaymentProperties.WithdrawOrganizerFundsIsEscrowStep | contract/contracts/ticket_payment/src/contract.rs:453-461 | an organizer withdrawal moves its event's entry by exactly the payout transition under the event's release percent |
| TicketPaymentProperties.WithdrawPlatformFeesIsEscrowStep | contract/contracts/ticket_payment/src/contract.rs:487-495 | a platform withdrawal moves its event's entry by exactly the platform payout transition |
| TicketPaymentProperties.TransferChargesEntry | contract/contracts/ticket_payment/src/contract.rs:559-569 | a transfer under a positive fee deposits the fee, organizer side only, into the event's entry |
| TicketPaymentProperties.TransferLeavesEntry | contract/contracts/ticket_payment/src/contract.rs:557-559 | any other transfer leaves the entry as it was |
| TicketPaymentProperties.TransferTicketIsEscrowStep | contract/contracts/ticket_payment/src/contract.rs:557-569 | a transfer moves an entry by exactly its fee deposit, or not at all |
| TicketPaymentProperties.NextIsEscrowStep | contract/contracts/ticket_payment/src/contract.rs:236-242 | each committed call moves an event's entry by exactly its escrow transition, and a failed call by none |
| TicketPaymentProperties.ReplayIsEscrowRun | contract/contracts/ticket_payment/src/contract.rs:453-461 | over any sequence of calls an event's entry evolves exactly as the run of those transitions |
| TicketPaymentProperties.ReplayConservesOrganizerFunds | contract/contracts/ticket_payment/src/contract.rs:415-416 | over any sequence of calls, held organizer funds plus paid-out funds grow by exactly the organizer amounts deposited |
| TicketPaymentProperties.InitializeOnlyOnce | contract/contracts/ticket_payment/src/contract.rs:92-108 | after a successful set-up the USDC token is whitelisted and any further set-up returns AlreadyInitialized |
| TicketPaymentProperties.AddThenRemoveToken | contract/contracts/ticket_payment/src/contract.rs:143-153 | adding and then removing a token leaves it de-listed and every other token's status and all other storage as before |
| TicketPaymentProperties.ProcessPaymentGuardOrder | contract/contracts/ticket_payment/src/contract.rs:175-217 | a bad amount or quantity traps whatever the registry and token would answer; then TokenNotWhitelisted, ArithmeticError, EventNotFound, EventInactive and InsufficientAllowance follow in that order |
| TicketPaymentProperties.PurchaseSplitScenario | contract/contracts/ticket_payment/src/contract.rs:205-242 | one 10000-unit ticket at 250 bps on an empty escrow leaves 9750 for the organizer and 250 for the platform |
| TicketPaymentProperties.PurchaseRecordScenario | contract/contracts/ticket_payment/src/test.rs:197-209 | the record of that ticket is Pending with platform fee 250 and organizer amount 9750 |
| TicketPaymentProperties.PurchaseSeenThroughQueries | contract/contracts/ticket_payment/src/contract.rs:236-282 | after a purchase, `get_payment_status` shows the first ticket Pending for its buyer, `get_buyer_payments` lists it and still lists every earlier id of every buyer, and `get_event_escrow_balance` has grown by exactly the purchase's split |
| TicketPaymentProperties.ConfirmPaymentIdempotent | contract/contracts/ticket_payment/src/contract.rs:301-317 | confirming again with the same reference at the same time changes nothing |
| TicketPaymentProperties.RefundEligibility | contract/contracts/ticket_payment/src/contract.rs:359-362 | a refund is refused with TicketNotRefundable exactly when the tier is not refundable and the event is active, and succeeds otherwise |
| TicketPaymentProperties.RefundRejections | contract/contracts/ticket_payment/src/contract.rs:337-357 | an unknown payment gives PaymentNotFound, a refunded or failed one InvalidPaymentStatus, an unknown tier TierNotFound |
| TicketPaymentProperties.RefundOnlyOnce | contract/contracts/ticket_payment/src/contract.rs:342-371 | after a refund the payment is Refunded and an immediate second refund is refused |
| TicketPaymentProperties.RefundAgainAfterReconfirmation | contract/contracts/ticket_payment/src/contract.rs:301-371 | a refunded payment can be refunded again: any caller may confirm it back to Confirmed, after which the holder's second refund succeeds and decrements inventory a second time |
| TicketPaymentProperties.SecondOrganizerWithdrawalPaysNothing | contract/contracts/ticket_payment/src/contract.rs:436-461 | with no new revenue, a second organizer withdrawal succeeds, pays 0 and leaves the entry unchanged |
| TicketPaymentProperties.SecondPlatformWithdrawalPaysNothing | contract/contracts/ticket_payment/src/contract.rs:475-478 | a second platform withdrawal pays 0, changes nothing and transfers nothing |
| TicketPaymentProperties.HandedOverAndBack | contract/contracts/ticket_payment/src/contract.rs:576-579 | handing an id over and back restores every holder's list as a set of ids |
| TicketPaymentProperties.TransferRoundTrip | contract/contracts/ticket_payment/src/contract.rs:571-579 | a ticket handed to someone and back leaves the payment records as they were and every holder's list with the same ids |
| TicketPaymentProperties.FeeFreeTransferRoundTrip | contract/contracts/ticket_payment/src/contract.rs:557-569 | without a transfer fee, the hand-back succeeds, the escrow is untouched and no token is moved |

## Left out

- Token calls (`allowance`, `balance`, `transfer_from`, `transfer`) are foreign calls into the token contract. The allowance and the observed balance change are inputs, and the transfers are recorded as effects that always succeed.
- Event Registry calls are cross-contract calls. `get_event` is an input, and a failed call folds to "not found" as the source does. `increment_inventory` and `decrement_inventory` are recorded effects.
- `require_auth` becomes a check that the single authorising principal `Env.caller` is the named address. Multi-party authorisation is not modelled.
- Event publishing and `upgrade` are host plumbing with no effect on storage. The ledger timestamp is the `Env.now` parameter.
- `ticket_payment/src/storage.rs` is not part of this model. Its helpers are modelled by their evident meaning, as described above.
- i128 overflow in unchecked arithmetic is modelled as an abort, i.e. with overflow checks enabled. This covers `total * bps`, the escrow additions, `total_revenue` and `total_revenue * pct`. The checked multiplication at lines 187-189 returns ArithmeticError, as written.
- The sub-payment keys are modelled exactly as written, collisions included. A corrected key scheme is not modelled, because the source gives no intended one.
- `test.rs` and everything under `server/` are not modelled. The test is out of step with the contract's signatures, and `server/` is an HTTP service.
- TicketPayment.ConfirmPayment: describes the resulting record only when payments are stored under their own ids. That is `KeyedById`, which every call keeps at any fee rate.
- TicketPayment.RequestGuestRefund: describes the resulting records under the same keyed-by-id assumption.
- TicketPaymentProperties.ProcessPaymentKeepsValid: assumes the registry's fee rate is at most 10000 bps. A larger rate would make the organizer amount negative, and the source does not guard against that.
- Fees.PerTicketSharesWithinTotals: assumes a fee rate of at most 10000 bps. The source does not check the rate, and a larger one makes the organizer share negative.
- TicketPaymentProperties.NextKeepsValid: assumes every purchase sees a registry fee rate of at most 10000 bps, for the same reason as `ProcessPaymentKeepsValid`.
- TicketPaymentProperties.ReplayKeepsValid: assumes the same fee-rate bound for every purchase in the sequence.
- TicketPaymentProperties.SecondOrganizerWithdrawalPaysNothing: assumes the entry is non-negative, which the storage invariant guarantees. It does not claim the second call transfers nothing. When the held share ran out before the unlocked amount did, the source still requests a transfer of 0.
- TicketPayment.ProcessPayment: the converse direction, that every acceptable purchase succeeds, is stated separately by `PurchaseAcceptedSucceeds`.
- Common.DivTrunc: the function's own contract states only sign and magnitude. The exact bracketing is in `DivTruncBrackets`, `SplitTotalRounding` and `PerTicketBrackets`.
- `confirm_payment` checks neither its caller nor the payment's status. Its comment (contract.rs:305) says that a real deployment would restrict it to a backend or admin address. The event it emits hard-codes `Pending` as the old status, so the code presumes the payment was Pending. The model keeps the code as written, and `RefundAgainAfterReconfirmation` shows the consequence: a refunded payment can be confirmed again and refunded a second time. A restricted confirmation is not modelled, because the backend address it names is not part of the contract's configuration.
- A refund does not debit the escrow and does not reverse the buyer's payment. The model follows the source, which leaves both alone.
- `withdraw_organizer_funds` has no initialisation check of its own. It traps through the registry-address lookup, which the model shows as `ContractNotInitialized`.

=== FILE: common.dfy ===
/**
  Shared vocabulary of the model: the Soroban integer widths the contracts use,
  an Option type, and Rust's truncating integer division.
 */
module Common {

  /** Soroban `Address` and `String` values are compared only for equality here. */
  type Address = string

  const I128Min: int := -0x8000_0000_0000_0000_0000_0000_0000_0000
  const I128Max: int := 0x7fff_ffff_ffff_ffff_ffff_ffff_ffff_ffff
  const U32Max: int := 0xffff_ffff

  /** Basis-point denominator: 10000 bps = 100%. */
  const Bps: int := 10000

  type I128 = x: int | I128Min <= x <= I128Max
  type U32 = x: int | 0 <= x <= U32Max

  /** True iff `x` is representable as a Rust `i128`. */
  predicate InI128(x: int)
  {
    I128Min <= x <= I128Max
  }

  datatype Option<+T> = None | Some(value: T)
  {
    function GetOr(default: T): T
    {
      match this
      case Some(v) => v
      case None => default
    }
  }

  /**
    Rust's `/` on signed integers: the quotient is rounded toward zero, so it
    has the dividend's sign and is no larger in magnitude. How the quotient
    brackets the dividend is stated by `DivTruncBrackets`.
   */
  function DivTrunc(a: int, b: int): (q: int)
    requires b > 0
    ensures a >= 0 ==> 0 <= q <= a
    ensures a < 0 ==> a <= q <= 0
  {
    if a >= 0 then
      DivFloorBounds(a, b);
      a / b
    else
      DivFloorBounds(-a, b);
      -((-a) / b)
  }

  /** The truncated quotient times the divisor is within one divisor of the dividend, toward zero. */
  lemma DivTruncBrackets(a: int, b: int)
    requires b > 0
    ensures a >= 0 ==> 0 <= DivTrunc(a, b) * b <= a < DivTrunc(a, b) * b + b
    ensures a < 0 ==> DivTrunc(a, b) * b - b < a <= DivTrunc(a, b) * b <= 0
  {
    if a >= 0 {
      DivFloorBounds(a, b);
    } else {
      DivFloorBounds(-a, b);
      NegateFactor(-a / b, b);
    }
  }

  /** Euclidean division of a non-negative number brackets it between two multiples of the divisor. */
  lemma DivFloorBounds(a: int, b: int)
    requires a >= 0 && b > 0
    ensures 0 <= (a / b) * b <= a < (a / b) * b + b
    ensures 0 <= a / b <= a
  {
    var q, r := a / b, a % b;
    assert a == q * b + r && 0 <= r < b;
    assert q >= 0;
    MulNonNegative(q, b);
    MulAtLeastFactor(q, b);
  }

  lemma MulAtLeastFactor(a: int, b: int)
    requires a >= 0 && b >= 1
    ensures a * b >= a
  {
    MulNonNegative(a, b - 1);
    assert a * (b - 1) == a * b - a;
  }

  lemma NegateFactor(x: int, b: int)
    ensures (-x) * b == -(x * b)
  {
  }

  predicate NoDuplicates<T(==)>(s: seq<T>)
  {
    forall i, j :: 0 <= i < j < |s| ==> s[i] != s[j]
  }

  /** `a` can be obtained from `b` by deleting elements, so it keeps their relative order. */
  predicate SubsequenceOf<T(==)>(a: seq<T>, b: seq<T>)
    decreases |b|
  {
    if |a| == 0 then true
    else if |b| == 0 then false
    else if a[0] == b[0] then SubsequenceOf(a[1..], b[1..])
    else SubsequenceOf(a, b[1..])
  }

  function Min(a: int, b: int): int
  {
    if a <= b then a else b
  }

  function Max(a: int, b: int): int
  {
    if a >= b then a else b
  }

  lemma MulNonNegative(a: int, b: int)
    requires a >= 0 && b >= 0
    ensures a * b >= 0
  {
  }
}

=== FILE: escrow.dfy ===
/**
  Escrow bookkeeping for one event: the organizer's share still held, the
  organizer's cumulative payouts, and the platform's share still held; and the
  milestone rule that gates how much of the organizer's lifetime revenue may be
  paid out.
 */
module Escrow {
  import opened Common
  import opened RegistryTypes

  datatype EventBalance = EventBalance(organizerAmount: int, totalWithdrawn: int, platformFee: int)

  /** The balance of an event that has never been credited. */
  const Zero: EventBalance := EventBalance(0, 0, 0)

  predicate NonNegative(b: EventBalance)
  {
    b.organizerAmount >= 0 && b.totalWithdrawn >= 0 && b.platformFee >= 0
  }

  /**
    Adds a payment's (or a transfer fee's) shares to the escrowed balances.
    Throughout, `organizerAmount + totalWithdrawn` is the organizer's lifetime
    revenue: what is still held plus what was already paid out.
   */
  function Credit(b: EventBalance, organizerDelta: int, platformDelta: int): (b': EventBalance)
    ensures b'.organizerAmount + b'.totalWithdrawn == b.organizerAmount + b.totalWithdrawn + organizerDelta
    ensures b'.platformFee == b.platformFee + platformDelta
    ensures b'.totalWithdrawn == b.totalWithdrawn
    ensures NonNegative(b) && organizerDelta >= 0 && platformDelta >= 0 ==> NonNegative(b')
  {
    b.(organizerAmount := b.organizerAmount + organizerDelta, platformFee := b.platformFee + platformDelta)
  }

  /** Moves `w` from the held organizer share to the paid-out total. */
  function PayOrganizer(b: EventBalance, w: int): (b': EventBalance)
    ensures b'.organizerAmount + b'.totalWithdrawn == b.organizerAmount + b.totalWithdrawn
    ensures b'.totalWithdrawn == b.totalWithdrawn + w
    ensures b'.platformFee == b.platformFee
    ensures NonNegative(b) && 0 <= w <= b.organizerAmount ==> NonNegative(b')
  {
    EventBalance(b.organizerAmount - w, b.totalWithdrawn + w, b.platformFee)
  }

  /** Pays the whole held platform share out. */
  function ClearPlatformFee(b: EventBalance): (b': EventBalance)
    ensures b'.platformFee == 0
    ensures b'.organizerAmount == b.organizerAmount && b'.totalWithdrawn == b.totalWithdrawn
    ensures NonNegative(b) ==> NonNegative(b')
  {
    b.(platformFee := 0)
  }

  predicate Met(m: Milestone, sold: int)
  {
    sold >= m.salesThreshold
  }

  /** The largest release percentage among the met milestones, or 0 when none is met. */
  function HighestMet(plan: seq<Milestone>, sold: int): (pct: int)
    ensures 0 <= pct <= U32Max
    ensures forall i :: 0 <= i < |plan| && Met(plan[i], sold) ==> plan[i].releasePercent <= pct
    ensures pct > 0 ==> exists i :: 0 <= i < |plan| && Met(plan[i], sold) && plan[i].releasePercent == pct
  {
    if |plan| == 0 then 0
    else
      var init := plan[..|plan| - 1];
      var best := HighestMet(init, sold);
      var last := plan[|plan| - 1];
      assert forall i :: 0 <= i < |init| ==> init[i] == plan[i];
      if Met(last, sold) && last.releasePercent > best then last.releasePercent else best
  }

  /**
    The percentage of lifetime revenue the organizer may have withdrawn:
    everything without a plan (or with an empty one), otherwise the highest
    percentage among the milestones the sold count has reached.
   */
  function ReleasePercent(plan: Option<seq<Milestone>>, sold: int): (pct: int)
    ensures 0 <= pct <= U32Max
    ensures plan.None? || plan.value == [] ==> pct == Bps
    ensures plan.Some? && plan.value != [] ==>
      && (forall i :: 0 <= i < |plan.value| && Met(plan.value[i], sold) ==> plan.value[i].releasePercent <= pct)
      && (pct > 0 ==> exists i :: 0 <= i < |plan.value| && Met(plan.value[i], sold) && plan.value[i].releasePercent == pct)
  {
    match plan
    case None => Bps
    case Some(ms) => if |ms| == 0 then Bps else HighestMet(ms, sold)
  }

  /**
    Lifetime revenue scaled by the release percentage, less what was already
    paid out: the share of revenue released so far that is still owed.
   */
  function Unlocked(b: EventBalance, pct: int): (u: int)
    requires pct >= 0
    ensures var revenue := b.organizerAmount + b.totalWithdrawn;
            revenue >= 0 ==> (u + b.totalWithdrawn) * Bps <= revenue * pct < (u + b.totalWithdrawn + 1) * Bps
    ensures b.organizerAmount + b.totalWithdrawn >= 0 && pct <= Bps ==> u <= b.organizerAmount
    ensures pct == Bps ==> u == b.organizerAmount
  {
    var revenue := b.organizerAmount + b.totalWithdrawn;
    DivTruncBrackets(revenue * pct, Bps);
    ScaledRevenueBounds(revenue, pct);
    DivTrunc(revenue * pct, Bps) - b.totalWithdrawn
  }

  lemma ScaledRevenueBounds(revenue: int, pct: int)
    requires pct >= 0
    ensures revenue >= 0 ==> 0 <= revenue * pct
    ensures revenue >= 0 && pct <= Bps ==> revenue * pct <= revenue * Bps
  {
    if revenue >= 0 {
      MulNonNegative(revenue, pct);
      if pct <= Bps {
        MulNonNegative(revenue, Bps - pct);
        assert revenue * (Bps - pct) == revenue * Bps - revenue * pct;
      }
    }
  }

  /**
    The organizer's payout: the unlocked amount, capped by the share still
    held, and nothing at all when the event has no revenue or nothing is unlocked.
   */
  function OrganizerPayout(b: EventBalance, pct: int): (w: int)
    requires pct >= 0
    ensures (b.organizerAmount + b.totalWithdrawn) == 0 ==> w == 0
    ensures w != 0 ==> w <= b.organizerAmount && w <= Unlocked(b, pct)
    ensures NonNegative(b) ==> 0 <= w
    ensures NonNegative(b) && (b.organizerAmount + b.totalWithdrawn) != 0 ==> w == Min(b.organizerAmount, Max(0, Unlocked(b, pct)))
  {
    var revenue := b.organizerAmount + b.totalWithdrawn;
    if revenue == 0 then 0
    else
      var available := Unlocked(b, pct);
      if available <= 0 then 0
      else if available > b.organizerAmount then b.organizerAmount
      else available
  }

  /** With no new revenue and the same percentage, a second withdrawal pays nothing. */
  lemma SecondPayoutIsZero(b: EventBalance, pct: int)
    requires NonNegative(b) && pct >= 0
    ensures var w := OrganizerPayout(b, pct);
            var b' := PayOrganizer(b, w);
            && OrganizerPayout(b', pct) == 0
            && Unlocked(b', pct) == Unlocked(b, pct) - w
            && (InI128(Unlocked(b, pct)) ==> InI128(Unlocked(b', pct)))
  {
    var w := OrganizerPayout(b, pct);
    var b' := PayOrganizer(b, w);
    assert b'.organizerAmount + b'.totalWithdrawn == b.organizerAmount + b.totalWithdrawn;
    assert Unlocked(b', pct) == Unlocked(b, pct) - w;
  }

  /**
    Milestone plan [(100, 20%), (500, 50%), (1000, 100%)] on 1000 units of
    organizer revenue, nothing withdrawn yet: at 99 sold nothing is paid, at
    100 sold 200 is paid, at 1000 sold the whole held balance is paid.
   */
  lemma MilestoneScenario(platformFee: int)
    ensures var plan := [Milestone(100, 2000), Milestone(500, 5000), Milestone(1000, 10000)];
            var b := EventBalance(1000, 0, platformFee);
            && OrganizerPayout(b, ReleasePercent(Some(plan), 99)) == 0
            && OrganizerPayout(b, ReleasePercent(Some(plan), 100)) == 200
            && OrganizerPayout(b, ReleasePercent(Some(plan), 1000)) == 1000
  {
    var plan := [Milestone(100, 2000), Milestone(500, 5000), Milestone(1000, 10000)];
    assert plan[..2] == [Milestone(100, 2000), Milestone(500, 5000)];
    assert plan[..2][..1] == [Milestone(100, 2000)];
    assert [Milestone(100, 2000)][..0] == [];
    assert HighestMet(plan, 99) == 0;
    assert HighestMet(plan, 100) == 2000;
    assert HighestMet(plan, 1000) == 10000;
    var b := EventBalance(1000, 0, platformFee);
    assert Unlocked(b, 0) == 0 && Unlocked(b, 2000) == 200 && Unlocked(b, 10000) == 1000;
  }

  /** One escrow transition, as the contract's entry points apply them. */
  datatype Step =
    | Deposit(organizerDelta: int, platformDelta: int)
    | OrganizerWithdrawal(releasePercent: nat)
    | PlatformWithdrawal

  function Apply(b: EventBalance, step: Step): EventBalance
  {
    match step
    case Deposit(o, p) => Credit(b, o, p)
    case OrganizerWithdrawal(pct) => PayOrganizer(b, OrganizerPayout(b, pct))
    case PlatformWithdrawal => ClearPlatformFee(b)
  }

  function Run(b: EventBalance, steps: seq<Step>): EventBalance
    decreases |steps|
  {
    if |steps| == 0 then b else Run(Apply(b, steps[0]), steps[1..])
  }

  /** Sum of the organizer shares deposited by a sequence of steps. */
  function Deposited(steps: seq<Step>): int
    decreases |steps|
  {
    if |steps| == 0 then 0
    else (if steps[0].Deposit? then steps[0].organizerDelta else 0) + Deposited(steps[1..])
  }

  predicate DepositsNonNegative(steps: seq<Step>)
  {
    forall i :: 0 <= i < |steps| && steps[i].Deposit? ==>
      steps[i].organizerDelta >= 0 && steps[i].platformDelta >= 0
  }

  /**
    Escrow conservation: after any sequence of deposits and withdrawals, the
    organizer share still held plus everything paid out equals what was there
    before plus everything deposited.
   */
  lemma {:induction false} RunConservesOrganizerFunds(b: EventBalance, steps: seq<Step>)
    ensures var b' := Run(b, steps);
            b'.organizerAmount + b'.totalWithdrawn == b.organizerAmount + b.totalWithdrawn + Deposited(steps)
    decreases |steps|
  {
    if |steps| > 0 {
      var b1 := Apply(b, steps[0]);
      assert b1.organizerAmount + b1.totalWithdrawn == b.organizerAmount + b.totalWithdrawn + (if steps[0].Deposit? then steps[0].organizerDelta else 0);
      RunConservesOrganizerFunds(b1, steps[1..]);
    }
  }

  /** No counter ever goes negative, and the paid-out total never decreases. */
  lemma {:induction false} RunKeepsBalancesSound(b: EventBalance, steps: seq<Step>)
    requires NonNegative(b) && DepositsNonNegative(steps)
    ensures NonNegative(Run(b, steps))
    ensures Run(b, steps).totalWithdrawn >= b.totalWithdrawn
    decreases |steps|
  {
    if |steps| > 0 {
      var b1 := Apply(b, steps[0]);
      assert NonNegative(b1) && b1.totalWithdrawn >= b.totalWithdrawn;
      assert DepositsNonNegative(steps[1..]) by {
        forall i | 0 <= i < |steps[1..]| && steps[1..][i].Deposit?
          ensures steps[1..][i].organizerDelta >= 0 && steps[1..][i].platformDelta >= 0
        {
          assert steps[1..][i] == steps[i + 1];
        }
      }
      RunKeepsBalancesSound(b1, steps[1..]);
    }
  }
}

=== FILE: fees.dfy ===
/**
  Fee arithmetic of a ticket purchase: the platform's basis-point cut of the
  purchase total, the organizer's remainder, and the per-ticket shares written
  into the individual payment records.
 */
module Fees {
  import opened Common

  datatype FeeSplit = FeeSplit(platformFee: int, organizerAmount: int)

  /**
    The platform fee is taken on the whole purchase total (rounded toward zero)
    and the organizer receives everything else. How the fee brackets the exact
    rate is stated by `SplitTotalRounding`.
   */
  function SplitTotal(total: int, bps: U32): (split: FeeSplit)
    ensures split.platformFee + split.organizerAmount == total
    ensures 0 <= total && bps <= Bps ==>
      0 <= split.platformFee <= total && 0 <= split.organizerAmount <= total
  {
    var fee := DivTrunc(total * bps, Bps);
    if 0 <= total && bps <= Bps then
      MulNonNegative(total, bps);
      DivTruncBrackets(total * bps, Bps);
      MulMonotone(total, bps, Bps);
      FeeSplit(fee, total - fee)
    else
      FeeSplit(fee, total - fee)
  }

  lemma MulMonotone(a: int, b: int, c: int)
    requires a >= 0 && b <= c
    ensures a * b <= a * c
  {
    MulNonNegative(a, c - b);
    assert a * (c - b) == a * c - a * b;
  }

  /** For a non-negative total the fee is the exact basis-point share rounded down. */
  lemma SplitTotalRounding(total: int, bps: U32)
    requires total >= 0
    ensures var fee := SplitTotal(total, bps).platformFee;
            fee * Bps <= total * bps < (fee + 1) * Bps
  {
    MulNonNegative(total, bps);
    DivTruncBrackets(total * bps, Bps);
  }

  /**
    A purchase-wide amount divided among `quantity` tickets, rounded toward
    zero; `PerTicketBrackets` states how the shares add back up.
   */
  function PerTicket(x: int, quantity: int): (share: int)
    requires quantity > 0
    ensures x >= 0 ==> 0 <= share <= x
    ensures x < 0 ==> x <= share <= 0
  {
    DivTrunc(x, quantity)
  }

  /** Summed over the tickets, the per-ticket shares fall short of the amount by less than one unit per ticket. */
  lemma PerTicketBrackets(x: int, quantity: int)
    requires quantity > 0
    ensures x >= 0 ==> 0 <= PerTicket(x, quantity) * quantity <= x < PerTicket(x, quantity) * quantity + quantity
    ensures x < 0 ==> PerTicket(x, quantity) * quantity - quantity < x <= PerTicket(x, quantity) * quantity <= 0
  {
    DivTruncBrackets(x, quantity);
  }

  /** 250 bps of 10000 is 250, leaving 9750 for the organizer; 500 bps of 10^10 is 5 * 10^8. */
  lemma SplitExamples()
    ensures SplitTotal(10000, 250) == FeeSplit(250, 9750)
    ensures SplitTotal(10_000_000_000, 500) == FeeSplit(500_000_000, 9_500_000_000)
  {
  }

  /**
    Summed over the tickets of one purchase, the per-ticket fee and organizer
    shares never exceed the purchase totals; what rounding leaves over stays
    in escrow and is less than one unit per ticket on each side.
   */
  lemma PerTicketSharesWithinTotals(total: int, bps: U32, quantity: int)
    requires total >= 0 && bps <= Bps && quantity > 0
    ensures var split := SplitTotal(total, bps);
            var fee := PerTicket(split.platformFee, quantity);
            var org := PerTicket(split.organizerAmount, quantity);
            && 0 <= fee * quantity <= split.platformFee < fee * quantity + quantity
            && 0 <= org * quantity <= split.organizerAmount < org * quantity + quantity
            && fee * quantity + org * quantity <= total
  {
    var split := SplitTotal(total, bps);
    PerTicketBrackets(split.platformFee, quantity);
    PerTicketBrackets(split.organizerAmount, quantity);
  }
}

=== FILE: ledger.dfy ===
/**
  The payment ledger of the ticket payment contract: one record per ticket,
  the ids under which a purchase's tickets are stored, and the buyer index
  (buyer address -> ids of the payments that buyer holds).
 */
module PaymentLedger {
  import opened Common

  datatype PaymentStatus = Pending | Confirmed | Refunded | Failed

  datatype Payment = Payment(
    paymentId: string,
    eventId: string,
    buyer: Address,
    tierId: string,
    amount: int,
    platformFee: int,
    organizerAmount: int,
    status: PaymentStatus,
    transactionHash: string,
    createdAt: int,
    confirmedAt: Option<int>
  )

  /**
    The storage key of ticket `i` of a purchase of `quantity` tickets: the
    caller's payment id for a single ticket, otherwise one of the fixed names
    "p-0" .. "p-4" and "p-many".
   */
  function SubPaymentId(paymentId: string, quantity: int, i: int): string
  {
    if quantity == 1 then paymentId
    else if i == 0 then "p-0"
    else if i == 1 then "p-1"
    else if i == 2 then "p-2"
    else if i == 3 then "p-3"
    else if i == 4 then "p-4"
    else "p-many"
  }

  /**
    The fixed names collide: the sixth and seventh ticket of one purchase
    share a key, and the first tickets of any two multi-ticket purchases do.
   */
  lemma SubPaymentIdsCollide(a: string, b: string)
    ensures SubPaymentId(a, 7, 5) == SubPaymentId(a, 7, 6)
    ensures SubPaymentId(a, 2, 0) == SubPaymentId(b, 3, 0)
  {
  }

  /** Appends `id` to a buyer's list unless it is already there. */
  function AddToIndex(ids: seq<string>, id: string): (r: seq<string>)
    ensures forall x :: x in r <==> x in ids || x == id
    ensures |ids| <= |r| <= |ids| + 1 && r[..|ids|] == ids
    ensures NoDuplicates(ids) ==> NoDuplicates(r)
  {
    if id in ids then ids else ids + [id]
  }

  /** Drops `id` from a buyer's list, keeping the other ids in their order. */
  function RemoveFromIndex(ids: seq<string>, id: string): (r: seq<string>)
    ensures forall x :: x in r <==> x in ids && x != id
    ensures SubsequenceOf(r, ids)
    ensures |r| <= |ids|
    ensures id !in ids ==> r == ids
    ensures NoDuplicates(ids) ==> NoDuplicates(r)
    decreases |ids|
  {
    if |ids| == 0 then []
    else
      var rest := RemoveFromIndex(ids[1..], id);
      assert NoDuplicates(ids) ==> NoDuplicates(ids[1..]) && ids[0] !in ids[1..];
      if ids[0] == id then rest
      else
        assert ([ids[0]] + rest)[1..] == rest;
        [ids[0]] + rest
  }

  /** Removing an id the list holds once shortens the list by exactly one. */
  lemma {:induction false} RemoveFromIndexDropsOne(ids: seq<string>, id: string)
    requires NoDuplicates(ids) && id in ids
    ensures |RemoveFromIndex(ids, id)| == |ids| - 1
    decreases |ids|
  {
    if ids[0] != id {
      assert id in ids[1..];
      assert NoDuplicates(ids[1..]);
      RemoveFromIndexDropsOne(ids[1..], id);
    } else {
      assert id !in ids[1..];
    }
  }
}

=== FILE: registry_storage.dfy ===
/**
  Persistent storage helpers of the Event Registry contract: the administrator,
  the global platform fee, the event records and the per-organizer event index.
  Soroban's persistent storage is modelled as one immutable record; every setter
  returns the new record.
 */
module RegistryStorage {
  import opened Common
  import opened RegistryTypes

  datatype Store = Store(
    admin: Option<Address>,
    platformFee: Option<U32>,
    events: map<string, EventInfo>,
    organizerEvents: map<Address, seq<string>>
  )

  /** Storage of a freshly deployed registry: no key is set. */
  const Empty: Store := Store(None, None, map[], map[])

  /** Every organizer's event list is duplicate-free. */
  predicate IndexWellFormed(s: Store)
  {
    forall org :: org in s.organizerEvents ==> NoDuplicates(s.organizerEvents[org])
  }

  function SetAdmin(s: Store, admin: Address): (s': Store)
    ensures GetAdmin(s') == Some(admin)
    ensures s'.platformFee == s.platformFee
    ensures s'.events == s.events && s'.organizerEvents == s.organizerEvents
  {
    s.(admin := Some(admin))
  }

  /** The administrator, absent until one is set. */
  function GetAdmin(s: Store): (admin: Option<Address>)
    ensures admin.Some? <==> s.admin.Some?
    ensures admin.Some? ==> admin.value == s.admin.value
  {
    s.admin
  }

  function SetPlatformFee(s: Store, fee: U32): (s': Store)
    ensures HasPlatformFee(s') && GetPlatformFee(s') == fee
    ensures s'.admin == s.admin
    ensures s'.events == s.events && s'.organizerEvents == s.organizerEvents
  {
    s.(platformFee := Some(fee))
  }

  /** The stored fee, or 0 when none was ever set. */
  function GetPlatformFee(s: Store): (fee: U32)
    ensures !HasPlatformFee(s) ==> fee == 0
    ensures HasPlatformFee(s) ==> Some(fee) == s.platformFee
  {
    s.platformFee.GetOr(0)
  }

  /** Whether a fee was ever set. */
  function HasPlatformFee(s: Store): (has: bool)
    ensures has <==> s.platformFee.Some?
  {
    s.platformFee.Some?
  }

  /** The record stored under `eventId`, if any. */
  function GetEvent(s: Store, eventId: string): (r: Option<EventInfo>)
    ensures r.Some? <==> eventId in s.events
    ensures r.Some? ==> r.value == s.events[eventId]
  {
    if eventId in s.events then Some(s.events[eventId]) else None
  }

  function EventExists(s: Store, eventId: string): (b: bool)
    ensures b <==> GetEvent(s, eventId).Some?
  {
    eventId in s.events
  }

  /** The organizer's event ids, or the empty list for an organizer never seen. */
  function GetOrganizerEvents(s: Store, organizer: Address): (ids: seq<string>)
    ensures organizer !in s.organizerEvents ==> ids == []
    ensures organizer in s.organizerEvents ==> ids == s.organizerEvents[organizer]
  {
    if organizer in s.organizerEvents then s.organizerEvents[organizer] else []
  }

  /** The duplicate scan over the organizer's list that `store_event` runs before appending. */
  method ContainsEventId(ids: seq<string>, eventId: string) returns (found: bool)
    ensures found <==> eventId in ids
  {
    found := false;
    var i := 0;
    while i < |ids|
      invariant 0 <= i <= |ids|
      invariant !found ==> eventId !in ids[..i]
      invariant found ==> eventId in ids
      decreases |ids| - i
    {
      if ids[i] == eventId {
        found := true;
        break;
      }
      i := i + 1;
    }
  }

  /**
    Stores (or overwrites) an event record and records its id in the
    organizer's list unless it is already there.
   */
  function StoreEvent(s: Store, e: EventInfo): (s': Store)
    ensures GetEvent(s', e.eventId) == Some(e)
    ensures forall id :: id != e.eventId ==> GetEvent(s', id) == GetEvent(s, id)
    ensures e.eventId in GetOrganizerEvents(s', e.organizer)
    ensures var before := GetOrganizerEvents(s, e.organizer);
            var after := GetOrganizerEvents(s', e.organizer);
            && |before| <= |after| <= |before| + 1
            && after[..|before|] == before
            && (forall id :: id in after ==> id in before || id == e.eventId)
    ensures forall org :: org != e.organizer ==> GetOrganizerEvents(s', org) == GetOrganizerEvents(s, org)
    ensures s'.admin == s.admin && s'.platformFee == s.platformFee
    ensures IndexWellFormed(s) ==> IndexWellFormed(s')
  {
    var ids := GetOrganizerEvents(s, e.organizer);
    var s1 := s.(events := s.events[e.eventId := e]);
    if e.eventId in ids then s1
    else s1.(organizerEvents := s1.organizerEvents[e.organizer := ids + [e.eventId]])
  }

  /** Storing the same record again changes nothing, in particular it adds no duplicate id. */
  lemma StoreEventIdempotent(s: Store, e: EventInfo)
    ensures StoreEvent(StoreEvent(s, e), e) == StoreEvent(s, e)
  {
  }

  /** A new id goes to the end of the organizer's list; an id already listed leaves the list as it was. */
  lemma StoreEventAppendsNewId(s: Store, e: EventInfo)
    ensures e.eventId !in GetOrganizerEvents(s, e.organizer) ==>
      GetOrganizerEvents(StoreEvent(s, e), e.organizer) == GetOrganizerEvents(s, e.organizer) + [e.eventId]
    ensures e.eventId in GetOrganizerEvents(s, e.organizer) ==>
      GetOrganizerEvents(StoreEvent(s, e), e.organizer) == GetOrganizerEvents(s, e.organizer)
  {
  }

  /** The last stored record for an id wins. */
  lemma StoreEventOverwrites(s: Store, e1: EventInfo, e2: EventInfo)
    requires e1.eventId == e2.eventId
    ensures GetEvent(StoreEvent(StoreEvent(s, e1), e2), e1.eventId) == Some(e2)
    ensures EventExists(StoreEvent(StoreEvent(s, e1), e2), e1.eventId)
  {
  }

  /**
    Re-storing an event under a different organizer does not prune the id
    from the earlier organizer's list: both lists then name the event.
   */
  lemma ReassignedEventStaysInOldList(s: Store, e1: EventInfo, e2: EventInfo)
    requires e1.eventId == e2.eventId && e1.organizer != e2.organizer
    ensures var s2 := StoreEvent(StoreEvent(s, e1), e2);
            && e1.eventId in GetOrganizerEvents(s2, e1.organizer)
            && e1.eventId in GetOrganizerEvents(s2, e2.organizer)
            && GetEvent(s2, e1.eventId) == Some(e2)
  {
  }

  /** Each storage key is independent: a write to one key leaves every other getter's answer alone. */
  lemma WritesLeaveOtherKeys(s: Store, admin: Address, fee: U32, e: EventInfo, eventId: string)
    ensures GetAdmin(SetPlatformFee(s, fee)) == GetAdmin(s) && GetAdmin(StoreEvent(s, e)) == GetAdmin(s)
    ensures HasPlatformFee(SetAdmin(s, admin)) == HasPlatformFee(s) && HasPlatformFee(StoreEvent(s, e)) == HasPlatformFee(s)
    ensures GetEvent(SetAdmin(s, admin), eventId) == GetEvent(s, eventId)
    ensures GetEvent(SetPlatformFee(s, fee), eventId) == GetEvent(s, eventId)
  {
  }

  /** A fresh registry has no fee, no events and empty organizer lists. */
  lemma EmptyStoreDefaults(organizer: Address, eventId: string)
    ensures GetPlatformFee(Empty) == 0 && !HasPlatformFee(Empty)
    ensures GetOrganizerEvents(Empty, organizer) == []
    ensures !EventExists(Empty, eventId) && GetAdmin(Empty) == None
  {
  }
}

=== FILE: registry_types.dfy ===
/**
  The records the Event Registry hands to the payment contract
  (the `event_registry` interface module of the ticket payment contract).
 */
module RegistryTypes {
  import opened Common

  datatype TicketTier = TicketTier(
    name: string,
    price: int,
    tierLimit: int,
    currentSold: int,
    isRefundable: bool
  )

  /** Once `salesThreshold` units are sold, `releasePercent` basis points of lifetime revenue unlock. */
  datatype Milestone = Milestone(salesThreshold: int, releasePercent: U32)

  datatype EventInfo = EventInfo(
    eventId: string,
    organizer: Address,
    paymentAddress: Address,
    platformFeeBps: U32,
    isActive: bool,
    createdAt: nat,
    metadataCid: string,
    maxSupply: int,
    currentSupply: int,
    milestonePlan: Option<seq<Milestone>>,
    tiers: map<string, TicketTier>
  )
}

=== FILE: ticket_payment.dfy ===
/**
  The ticket payment contract as a state machine. The contract's persistent
  storage is one immutable `State`; every entry point is a function from the
  state, the host context and the answers of the external services to an
  `Outcome`: a new state with a return value and the external effects it
  requested, a typed contract error, or an abort (a panic or a failed
  authorisation). A failed invocation is rolled back by the host, so neither
  kind of failure carries a state.
 */
module TicketPayment {
  import opened Common
  import opened RegistryTypes
  import opened Fees
  import opened Escrow
  import opened PaymentLedger

  datatype Config = Config(admin: Address, usdcToken: Address, platformWallet: Address, eventRegistry: Address)

  datatype State = State(
    config: Option<Config>,
    whitelist: set<Address>,
    payments: map<string, Payment>,
    balances: map<string, EventBalance>,
    buyerIndex: map<Address, seq<string>>,
    transferFees: map<string, int>
  )

  /** Storage of a freshly deployed contract. */
  const Deployed: State := State(None, {}, map[], map[], map[], map[])

  /**
    What the host supplies to a call: the contract's own address, the single
    principal that authorised the invocation, and the ledger timestamp.
   */
  datatype Env = Env(contract: Address, caller: Address, now: nat)

  /** The contract's typed errors. */
  datatype Error =
    | AlreadyInitialized
    | NotInitialized
    | InvalidAddress
    | TokenNotWhitelisted
    | ArithmeticError
    | EventNotFound
    | EventInactive
    | TierNotFound
    | InsufficientAllowance
    | TransferVerificationFailed
    | PaymentNotFound
    | InvalidPaymentStatus
    | TicketNotRefundable

  /** Reasons an invocation traps instead of returning an error. */
  datatype Panic =
    | ContractNotInitialized
    | NotAuthorized(principal: Address)
    | AmountNotPositive
    | QuantityNotPositive
    | NegativeTransferFee
    | AdminNotSet
    | Overflow

  /** Calls into the token contract and the Event Registry that a successful invocation makes. */
  datatype Effect =
    | TokenTransferFrom(token: Address, from: Address, to: Address, amount: int)
    | TokenTransfer(token: Address, from: Address, to: Address, amount: int)
    | IncrementInventory(eventId: string, tierId: string, quantity: int)
    | DecrementInventory(eventId: string, tierId: string)

  datatype Outcome<T> =
    | Ok(state: State, value: T, effects: seq<Effect>)
    | Err(error: Error)
    | Abort(panic: Panic)

  predicate Initialized(s: State)
  {
    s.config.Some?
  }

  /** The escrow entry of an event; an event never credited reads as all zeros. */
  function BalanceOf(s: State, eventId: string): EventBalance
  {
    EscrowEntry(s.balances, eventId)
  }

  function EscrowEntry(balances: map<string, EventBalance>, eventId: string): EventBalance
  {
    if eventId in balances then balances[eventId] else Zero
  }

  /** The buyer index entry; a buyer never indexed reads as the empty list. */
  function PaymentsOf(s: State, buyer: Address): seq<string>
  {
    Holdings(s.buyerIndex, buyer)
  }

  function Holdings(index: map<Address, seq<string>>, buyer: Address): seq<string>
  {
    if buyer in index then index[buyer] else []
  }

  /**
    Between two versions of the buyer index, `paymentId` left `from`'s list
    and joined `to`'s; every other id of those two lists, and every other
    buyer's list, is as it was.
   */
  ghost predicate HandedOver(index: map<Address, seq<string>>, index': map<Address, seq<string>>,
                             paymentId: string, from: Address, to: Address)
  {
    && paymentId !in Holdings(index', from)
    && paymentId in Holdings(index', to)
    && (forall x {:trigger x in Holdings(index', from)} :: x != paymentId ==> (x in Holdings(index', from) <==> x in Holdings(index, from)))
    && (forall x {:trigger x in Holdings(index', to)} :: x != paymentId ==> (x in Holdings(index', to) <==> x in Holdings(index, to)))
    && (forall b {:trigger Holdings(index', b)} :: b != from && b != to ==> Holdings(index', b) == Holdings(index, b))
  }

  /** The per-event transfer fee; 0 when the organizer never set one. */
  function TransferFeeOf(s: State, eventId: string): int
  {
    if eventId in s.transferFees then s.transferFees[eventId] else 0
  }

  /** Every payment is stored under its own id. */
  predicate KeyedById(s: State)
  {
    forall k :: k in s.payments ==> s.payments[k].paymentId == k
  }

  predicate IndexesWellFormed(s: State)
  {
    forall b :: b in s.buyerIndex ==> NoDuplicates(s.buyerIndex[b])
  }

  /** Writes a payment under its id and lists the id in its buyer's index. */
  function StorePayment(s: State, p: Payment): (s': State)
    ensures s'.payments == s.payments[p.paymentId := p]
    ensures p.paymentId in PaymentsOf(s', p.buyer)
    ensures forall x :: x in PaymentsOf(s', p.buyer) <==> x in PaymentsOf(s, p.buyer) || x == p.paymentId
    ensures forall b :: b != p.buyer ==> PaymentsOf(s', b) == PaymentsOf(s, b)
    ensures s'.config == s.config && s'.whitelist == s.whitelist
    ensures s'.balances == s.balances && s'.transferFees == s.transferFees
    ensures IndexesWellFormed(s) ==> IndexesWellFormed(s')
    ensures KeyedById(s) ==> KeyedById(s')
  {
    s.(payments := s.payments[p.paymentId := p],
       buyerIndex := s.buyerIndex[p.buyer := AddToIndex(PaymentsOf(s, p.buyer), p.paymentId)])
  }

  // ---------------------------------------------------------------------------
  // Administration

  /**
    One-shot set-up: stores the configuration and whitelists the USDC token.
    Refused on a second call, and when any configured address is the
    contract's own address.
   */
  function Initialize(s: State, env: Env, admin: Address, usdcToken: Address,
                      platformWallet: Address, eventRegistry: Address): (r: Outcome<()>)
    ensures Initialized(s) ==> r == Err(AlreadyInitialized)
    ensures !Initialized(s) && env.contract in {admin, usdcToken, platformWallet, eventRegistry} ==>
      r == Err(InvalidAddress)
    ensures r.Ok? <==> !Initialized(s) && env.contract !in {admin, usdcToken, platformWallet, eventRegistry}
    ensures r.Ok? ==>
      && Initialized(r.state)
      && r.state.config.value == Config(admin, usdcToken, platformWallet, eventRegistry)
      && r.state.whitelist == s.whitelist + {usdcToken}
      && r.state.payments == s.payments && r.state.balances == s.balances
      && r.state.buyerIndex == s.buyerIndex && r.state.transferFees == s.transferFees
      && r.effects == []
  {
    if Initialized(s) then Err(AlreadyInitialized)
    else if admin == env.contract || usdcToken == env.contract
         || platformWallet == env.contract || eventRegistry == env.contract then Err(InvalidAddress)
    else
      Ok(s.(config := Some(Config(admin, usdcToken, platformWallet, eventRegistry)),
            whitelist := s.whitelist + {usdcToken}), (), [])
  }

  /** Admin-only: allows `token` for payments. */
  function AddToken(s: State, env: Env, token: Address): (r: Outcome<()>)
    ensures !Initialized(s) ==> r == Abort(AdminNotSet)
    ensures r.Ok? <==> Initialized(s) && env.caller == s.config.value.admin
    ensures r.Ok? ==> IsTokenAllowed(r.state, token)
    ensures r.Ok? ==> forall t :: t != token ==> (IsTokenAllowed(r.state, t) <==> IsTokenAllowed(s, t))
    ensures r.Ok? ==> r.state.(whitelist := s.whitelist) == s
  {
    if !Initialized(s) then Abort(AdminNotSet)
    else if env.caller != s.config.value.admin then Abort(NotAuthorized(s.config.value.admin))
    else Ok(s.(whitelist := s.whitelist + {token}), (), [])
  }

  /** Admin-only: withdraws `token` from the whitelist. */
  function RemoveToken(s: State, env: Env, token: Address): (r: Outcome<()>)
    ensures !Initialized(s) ==> r == Abort(AdminNotSet)
    ensures r.Ok? <==> Initialized(s) && env.caller == s.config.value.admin
    ensures r.Ok? ==> !IsTokenAllowed(r.state, token)
    ensures r.Ok? ==> forall t :: t != token ==> (IsTokenAllowed(r.state, t) <==> IsTokenAllowed(s, t))
    ensures r.Ok? ==> r.state.(whitelist := s.whitelist) == s
  {
    if !Initialized(s) then Abort(AdminNotSet)
    else if env.caller != s.config.value.admin then Abort(NotAuthorized(s.config.value.admin))
    else Ok(s.(whitelist := s.whitelist - {token}), (), [])
  }

  /** Whether purchases may be paid in `token`. */
  function IsTokenAllowed(s: State, token: Address): (allowed: bool)
    ensures allowed <==> token in s.whitelist
  {
    token in s.whitelist
  }

  // ---------------------------------------------------------------------------
  // Purchase

  /** The set of keys the tickets 0 .. n-1 of a purchase are stored under. */
  function TicketKeys(paymentId: string, quantity: int, n: nat): set<string>
  {
    set i | 0 <= i < n :: SubPaymentId(paymentId, quantity, i)
  }

  /**
    Stores the records of tickets 0 .. n-1 of a purchase, each a copy of
    `ticket` carrying its own key as payment id.
   */
  function StoreTickets(s: State, ticket: Payment, quantity: int, n: nat): (s': State)
    ensures forall i :: 0 <= i < n ==>
      var k := SubPaymentId(ticket.paymentId, quantity, i);
      k in s'.payments && s'.payments[k] == ticket.(paymentId := k)
    ensures forall k :: k in s'.payments <==> k in s.payments || k in TicketKeys(ticket.paymentId, quantity, n)
    ensures forall k :: k in s.payments && k !in TicketKeys(ticket.paymentId, quantity, n) ==>
      s'.payments[k] == s.payments[k]
    ensures forall k :: k in TicketKeys(ticket.paymentId, quantity, n) ==> k in PaymentsOf(s', ticket.buyer)
    ensures forall x :: x in PaymentsOf(s', ticket.buyer) <==> x in PaymentsOf(s, ticket.buyer) || x in TicketKeys(ticket.paymentId, quantity, n)
    ensures forall b :: b != ticket.buyer ==> PaymentsOf(s', b) == PaymentsOf(s, b)
    ensures s'.config == s.config && s'.whitelist == s.whitelist
    ensures s'.balances == s.balances && s'.transferFees == s.transferFees
    ensures IndexesWellFormed(s) ==> IndexesWellFormed(s')
    ensures KeyedById(s) ==> KeyedById(s')
    decreases n
  {
    if n == 0 then s
    else
      var prev := StoreTickets(s, ticket, quantity, n - 1);
      var k := SubPaymentId(ticket.paymentId, quantity, n - 1);
      assert TicketKeys(ticket.paymentId, quantity, n) == TicketKeys(ticket.paymentId, quantity, n - 1) + {k};
      StorePayment(prev, ticket.(paymentId := k))
  }

  /** The record written for every ticket of a purchase, before it receives its key. */
  function TicketTemplate(env: Env, paymentId: string, eventId: string, tierId: string, buyer: Address,
                          amount: int, quantity: int, split: FeeSplit): Payment
    requires quantity > 0
  {
    Payment(paymentId, eventId, buyer, tierId, amount,
            PerTicket(split.platformFee, quantity), PerTicket(split.organizerAmount, quantity),
            Pending, "", env.now, None)
  }

  /**
    The bookkeeping of an accepted purchase: the escrow entry of `eventId` is
    credited with the purchase's shares and one record per ticket is stored.
   */
  function CommitPurchase(s: State, env: Env, paymentId: string, eventId: string, tierId: string,
                          buyer: Address, amount: int, quantity: int, split: FeeSplit): (s': State)
    requires quantity > 0
    ensures
      var before := BalanceOf(s, eventId);
      var after := BalanceOf(s', eventId);
      && after.organizerAmount + after.totalWithdrawn == before.organizerAmount + before.totalWithdrawn + split.organizerAmount
      && after.platformFee == before.platformFee + split.platformFee
      && after.totalWithdrawn == before.totalWithdrawn
      && (forall e :: e != eventId ==> BalanceOf(s', e) == BalanceOf(s, e))
    ensures forall i :: 0 <= i < quantity ==>
      var k := SubPaymentId(paymentId, quantity, i);
      && k in s'.payments
      && s'.payments[k] == Payment(k, eventId, buyer, tierId, amount,
           PerTicket(split.platformFee, quantity), PerTicket(split.organizerAmount, quantity),
           Pending, "", env.now, None)
      && k in PaymentsOf(s', buyer)
    ensures s'.payments.Keys == s.payments.Keys + TicketKeys(paymentId, quantity, quantity)
    ensures forall x :: x in PaymentsOf(s', buyer) <==> x in PaymentsOf(s, buyer) || x in TicketKeys(paymentId, quantity, quantity)
    ensures forall k :: k in s.payments && k !in TicketKeys(paymentId, quantity, quantity) ==>
      s'.payments[k] == s.payments[k]
    ensures forall b :: b != buyer ==> PaymentsOf(s', b) == PaymentsOf(s, b)
    ensures s'.config == s.config && s'.whitelist == s.whitelist && s'.transferFees == s.transferFees
    ensures IndexesWellFormed(s) ==> IndexesWellFormed(s')
    ensures KeyedById(s) ==> KeyedById(s')
  {
    var before := BalanceOf(s, eventId);
    var credited := s.(balances := s.balances[eventId := Credit(before, split.organizerAmount, split.platformFee)]);
    var ticket := TicketTemplate(env, paymentId, eventId, tierId, buyer, amount, quantity, split);
    StoreTickets(credited, ticket, quantity, quantity)
  }

  /**
    The conditions under which a purchase goes through: set-up done, the
    buyer signs, positive amount and quantity, a whitelisted token, no
    overflow, an active event, enough allowance, the full amount received.
   */
  predicate PurchaseAccepted(s: State, env: Env, eventId: string, buyer: Address, token: Address,
                             amount: int, quantity: int, event: Option<EventInfo>, allowance: int, received: int)
  {
    && Initialized(s) && env.caller == buyer && amount > 0 && quantity > 0
    && IsTokenAllowed(s, token) && InI128(amount * quantity)
    && event.Some? && event.value.isActive
    && InI128(amount * quantity * event.value.platformFeeBps)
    && allowance >= amount * quantity && received == amount * quantity
    && InI128(BalanceOf(s, eventId).organizerAmount + SplitTotal(amount * quantity, event.value.platformFeeBps).organizerAmount)
    && InI128(BalanceOf(s, eventId).platformFee + SplitTotal(amount * quantity, event.value.platformFeeBps).platformFee)
  }

  /**
    Buys `quantity` tickets at `amount` each. `event` is the registry's answer
    for `eventId`; `allowance` is the buyer's allowance to the contract and
    `received` the change of the contract's token balance across the transfer.
   */
  function ProcessPayment(s: State, env: Env, paymentId: string, eventId: string, tierId: string,
                          buyer: Address, token: Address, amount: I128, quantity: U32,
                          event: Option<EventInfo>, allowance: int, received: int): (r: Outcome<string>)
    ensures r.Ok? ==> PurchaseAccepted(s, env, eventId, buyer, token, amount, quantity, event, allowance, received)
    ensures r.Ok? ==>
      var total := amount * quantity;
      var split := SplitTotal(total, event.value.platformFeeBps);
      && r.value == paymentId
      && split.platformFee + split.organizerAmount == total
      && r.state == CommitPurchase(s, env, paymentId, eventId, tierId, buyer, amount, quantity, split)
      && r.effects == [TokenTransferFrom(token, buyer, env.contract, total), IncrementInventory(eventId, tierId, quantity)]
  {
    if !Initialized(s) then Abort(ContractNotInitialized)
    else if env.caller != buyer then Abort(NotAuthorized(buyer))
    else if amount <= 0 then Abort(AmountNotPositive)
    else if quantity == 0 then Abort(QuantityNotPositive)
    else if !IsTokenAllowed(s, token) then Err(TokenNotWhitelisted)
    else if !InI128(amount * quantity) then Err(ArithmeticError)
    else if event.None? then Err(EventNotFound)
    else if !event.value.isActive then Err(EventInactive)
    else
      var total := amount * quantity;
      if !InI128(total * event.value.platformFeeBps) then Abort(Overflow)
      else
        var split := SplitTotal(total, event.value.platformFeeBps);
        if allowance < total then Err(InsufficientAllowance)
        else if received != total then Err(TransferVerificationFailed)
        else
          var before := BalanceOf(s, eventId);
          if !InI128(before.organizerAmount + split.organizerAmount)
             || !InI128(before.platformFee + split.platformFee) then Abort(Overflow)
          else
            Ok(CommitPurchase(s, env, paymentId, eventId, tierId, buyer, amount, quantity, split), paymentId,
               [TokenTransferFrom(token, buyer, env.contract, total), IncrementInventory(eventId, tierId, quantity)])
  }

  /** Every purchase that meets the acceptance conditions goes through. */
  lemma PurchaseAcceptedSucceeds(s: State, env: Env, paymentId: string, eventId: string, tierId: string,
                                 buyer: Address, token: Address, amount: I128, quantity: U32,
                                 event: Option<EventInfo>, allowance: int, received: int)
    requires PurchaseAccepted(s, env, eventId, buyer, token, amount, quantity, event, allowance, received)
    ensures ProcessPayment(s, env, paymentId, eventId, tierId, buyer, token, amount, quantity, event, allowance, received).Ok?
  {
  }

  // ---------------------------------------------------------------------------
  // Payment status

  /**
    Marks a stored payment Confirmed, stamps the confirmation time and
    records the settlement reference. Any caller may confirm, from any
    status; an unknown id is a no-op.
   */
  function ConfirmPayment(s: State, env: Env, paymentId: string, transactionHash: string): (r: Outcome<()>)
    ensures r.Ok? <==> Initialized(s)
    ensures r.Ok? && paymentId !in s.payments ==> r.state == s
    ensures r.Ok? && paymentId in s.payments && KeyedById(s) ==>
      var p := s.payments[paymentId];
      && paymentId in r.state.payments
      && var q := r.state.payments[paymentId];
      && q.status == Confirmed && q.transactionHash == transactionHash && q.confirmedAt == Some(env.now)
      && q.(status := p.status, transactionHash := p.transactionHash, confirmedAt := p.confirmedAt) == p
      && r.state.payments.Keys == s.payments.Keys
      && (forall k :: k in s.payments && k != paymentId ==> r.state.payments[k] == s.payments[k])
      && r.state.balances == s.balances && r.state.whitelist == s.whitelist
      && KeyedById(r.state)
    ensures r.Ok? ==> r.state.transferFees == s.transferFees && r.state.config == s.config
    ensures r.Ok? && IndexesWellFormed(s) ==> IndexesWellFormed(r.state)
    ensures r.Ok? && KeyedById(s) ==> forall b, x :: x in PaymentsOf(r.state, b) <==>
      x in PaymentsOf(s, b) || (paymentId in s.payments && b == s.payments[paymentId].buyer && x == paymentId)
    ensures r.Ok? ==> r.effects == []
  {
    if !Initialized(s) then Abort(ContractNotInitialized)
    else if paymentId !in s.payments then Ok(s, (), [])
    else
      var p := s.payments[paymentId];
      var s1 := StorePayment(s, p.(status := Confirmed, confirmedAt := Some(env.now)));
      Ok(StorePayment(s1, s1.payments[paymentId].(transactionHash := transactionHash)), (), [])
  }

  /** A ticket may be refunded when its tier is refundable or its event has been deactivated. */
  predicate RefundAllowed(tier: TicketTier, event: EventInfo)
  {
    tier.isRefundable || !event.isActive
  }

  /**
    The holder gives a ticket back: its tier's sold count is decremented in
    the registry and the payment becomes Refunded. The escrow is not debited.
   */
  function RequestGuestRefund(s: State, env: Env, paymentId: string, event: Option<EventInfo>): (r: Outcome<()>)
    ensures r.Ok? <==>
      && Initialized(s) && paymentId in s.payments
      && env.caller == s.payments[paymentId].buyer
      && s.payments[paymentId].status !in {Refunded, Failed}
      && event.Some? && s.payments[paymentId].tierId in event.value.tiers
      && RefundAllowed(event.value.tiers[s.payments[paymentId].tierId], event.value)
    ensures r.Ok? && KeyedById(s) ==>
      var p := s.payments[paymentId];
      && r.state.payments == s.payments[paymentId := p.(status := Refunded, confirmedAt := Some(env.now))]
      && paymentId in PaymentsOf(r.state, p.buyer)
      && r.state.balances == s.balances
      && r.effects == [DecrementInventory(p.eventId, p.tierId)]
    ensures r.Ok? ==> r.state.transferFees == s.transferFees && r.state.config == s.config
    ensures r.Ok? ==> r.state.whitelist == s.whitelist
    ensures r.Ok? && IndexesWellFormed(s) ==> IndexesWellFormed(r.state)
    ensures r.Ok? && KeyedById(s) ==> forall b, x :: x in PaymentsOf(r.state, b) <==>
      x in PaymentsOf(s, b) || (b == s.payments[paymentId].buyer && x == paymentId)
  {
    if !Initialized(s) then Abort(ContractNotInitialized)
    else if paymentId !in s.payments then Err(PaymentNotFound)
    else
      var p := s.payments[paymentId];
      if env.caller != p.buyer then Abort(NotAuthorized(p.buyer))
      else if p.status == Refunded || p.status == Failed then Err(InvalidPaymentStatus)
      else if event.None? then Err(EventNotFound)
      else if p.tierId !in event.value.tiers then Err(TierNotFound)
      else if !event.value.tiers[p.tierId].isRefundable && event.value.isActive then Err(TicketNotRefundable)
      else
        var refunded := p.(status := Refunded, confirmedAt := Some(env.now));
        Ok(StorePayment(s, refunded), (), [DecrementInventory(p.eventId, p.tierId)])
  }

  /** The record stored under `paymentId`, if any. */
  function GetPaymentStatus(s: State, paymentId: string): (r: Option<Payment>)
    ensures r.Some? <==> paymentId in s.payments
    ensures r.Some? ==> r.value == s.payments[paymentId]
    ensures KeyedById(s) && r.Some? ==> r.value.paymentId == paymentId
  {
    if paymentId in s.payments then Some(s.payments[paymentId]) else None
  }

  /** The ids listed for `buyer`; empty for a buyer never indexed. */
  function GetBuyerPayments(s: State, buyer: Address): (ids: seq<string>)
    ensures buyer !in s.buyerIndex ==> ids == []
    ensures buyer in s.buyerIndex ==> ids == s.buyerIndex[buyer]
    ensures IndexesWellFormed(s) ==> NoDuplicates(ids)
  {
    PaymentsOf(s, buyer)
  }

  /** The escrow entry of `eventId`; all zeros for an event never credited. */
  function GetEventEscrowBalance(s: State, eventId: string): (b: EventBalance)
    ensures eventId !in s.balances ==> b == Zero
    ensures eventId in s.balances ==> b == s.balances[eventId]
  {
    BalanceOf(s, eventId)
  }

  // ---------------------------------------------------------------------------
  // Withdrawals

  /**
    Pays the organizer what the event's milestone plan has unlocked and the
    escrow still holds. `event` is the registry's answer for `eventId`.
   */
  function WithdrawOrganizerFunds(s: State, env: Env, eventId: string, token: Address,
                                  event: Option<EventInfo>): (r: Outcome<int>)
    ensures r.Ok? ==> event.Some? && env.caller == event.value.organizer && Initialized(s)
    ensures Initialized(s) && event.None? ==> r == Err(EventNotFound)
    ensures Initialized(s) && event.Some? && env.caller == event.value.organizer ==>
      var before := BalanceOf(s, eventId);
      var revenue := before.organizerAmount + before.totalWithdrawn;
      var pct := ReleasePercent(event.value.milestonePlan, event.value.currentSupply);
      (r.Ok? <==> InI128(revenue) && (revenue != 0 ==> InI128(revenue * pct) && InI128(Unlocked(before, pct))))
    ensures r.Ok? ==>
      var before := BalanceOf(s, eventId);
      var after := BalanceOf(r.state, eventId);
      var pct := ReleasePercent(event.value.milestonePlan, event.value.currentSupply);
      && r.value == OrganizerPayout(before, pct)
      && (r.value != 0 ==> r.value <= before.organizerAmount && r.value <= Unlocked(before, pct))
      && ((before.organizerAmount + before.totalWithdrawn) == 0 ==> r.value == 0)
      && (NonNegative(before) ==> 0 <= r.value <= before.organizerAmount && NonNegative(after))
      && after.organizerAmount + after.totalWithdrawn == before.organizerAmount + before.totalWithdrawn
      && after.totalWithdrawn == before.totalWithdrawn + r.value
      && after.platformFee == before.platformFee
      && (forall e :: e != eventId ==> BalanceOf(r.state, e) == BalanceOf(s, e))
      && r.state.payments == s.payments && r.state.buyerIndex == s.buyerIndex
      && r.state.config == s.config && r.state.whitelist == s.whitelist
      && r.state.transferFees == s.transferFees
      && r.effects == (if (before.organizerAmount + before.totalWithdrawn) == 0 || Unlocked(before, pct) <= 0 then []
                       else [TokenTransfer(token, env.contract, event.value.organizer, r.value)])
  {
    if !Initialized(s) then Abort(ContractNotInitialized)
    else if event.None? then Err(EventNotFound)
    else if env.caller != event.value.organizer then Abort(NotAuthorized(event.value.organizer))
    else
      var before := BalanceOf(s, eventId);
      var revenue := before.organizerAmount + before.totalWithdrawn;
      if !InI128(revenue) then Abort(Overflow)
      else if revenue == 0 then Ok(s, 0, [])
      else
        var pct := ReleasePercent(event.value.milestonePlan, event.value.currentSupply);
        if !InI128(revenue * pct) || !InI128(Unlocked(before, pct)) then Abort(Overflow)
        else if Unlocked(before, pct) <= 0 then Ok(s, 0, [])
        else
          var w := OrganizerPayout(before, pct);
          Ok(s.(balances := s.balances[eventId := PayOrganizer(before, w)]), w,
             [TokenTransfer(token, env.contract, event.value.organizer, w)])
  }

  /** Admin-only: pays the event's whole held platform share to the platform wallet. */
  function WithdrawPlatformFees(s: State, env: Env, eventId: string, token: Address): (r: Outcome<int>)
    ensures !Initialized(s) ==> r == Err(NotInitialized)
    ensures r.Ok? <==> Initialized(s) && env.caller == s.config.value.admin
    ensures r.Ok? ==>
      var before := BalanceOf(s, eventId);
      var after := BalanceOf(r.state, eventId);
      && r.value == before.platformFee
      && after.platformFee == 0
      && after.organizerAmount == before.organizerAmount
      && after.totalWithdrawn == before.totalWithdrawn
      && (forall e :: e != eventId ==> BalanceOf(r.state, e) == BalanceOf(s, e))
      && r.state.payments == s.payments && r.state.buyerIndex == s.buyerIndex
      && r.state.config == s.config && r.state.whitelist == s.whitelist
      && r.state.transferFees == s.transferFees
      && r.effects == (if r.value == 0 then []
                       else [TokenTransfer(token, env.contract, s.config.value.platformWallet, r.value)])
  {
    if !Initialized(s) then Err(NotInitialized)
    else if env.caller != s.config.value.admin then Abort(NotAuthorized(s.config.value.admin))
    else
      var before := BalanceOf(s, eventId);
      if before.platformFee == 0 then Ok(s, 0, [])
      else
        Ok(s.(balances := s.balances[eventId := ClearPlatformFee(before)]), before.platformFee,
           [TokenTransfer(token, env.contract, s.config.value.platformWallet, before.platformFee)])
  }

  // ---------------------------------------------------------------------------
  // Transfers

  /** Organizer-only: sets the fee charged on every transfer of the event's tickets. */
  function SetTransferFee(s: State, env: Env, eventId: string, amount: I128, event: Option<EventInfo>): (r: Outcome<()>)
    ensures r.Ok? <==>
      Initialized(s) && event.Some? && env.caller == event.value.organizer && amount >= 0
    ensures Initialized(s) && event.Some? && env.caller == event.value.organizer && amount < 0 ==>
      r == Abort(NegativeTransferFee)
    ensures r.Ok? ==>
      && TransferFeeOf(r.state, eventId) == amount
      && (forall e :: e != eventId ==> TransferFeeOf(r.state, e) == TransferFeeOf(s, e))
      && r.state.(transferFees := s.transferFees) == s
  {
    if !Initialized(s) then Abort(ContractNotInitialized)
    else if event.None? then Err(EventNotFound)
    else if env.caller != event.value.organizer then Abort(NotAuthorized(event.value.organizer))
    else if amount < 0 then Abort(NegativeTransferFee)
    else Ok(s.(transferFees := s.transferFees[eventId := amount]), (), [])
  }

  /**
    Re-assigns payment `p`, stored under `paymentId`, to `to`: the record is
    rewritten and the id moves from the old holder's index to the new one's.
   */
  function MoveTicket(s: State, paymentId: string, p: Payment, to: Address): (s': State)
    requires p.buyer != to
    ensures s'.payments == s.payments[paymentId := p.(buyer := to)]
    ensures HandedOver(s.buyerIndex, s'.buyerIndex, paymentId, p.buyer, to)
    ensures s'.config == s.config && s'.whitelist == s.whitelist
    ensures s'.balances == s.balances && s'.transferFees == s.transferFees
    ensures IndexesWellFormed(s) ==> IndexesWellFormed(s')
  {
    HandOverKeepsNoDuplicates(s.buyerIndex, paymentId, p.buyer, to);
    s.(payments := s.payments[paymentId := p.(buyer := to)],
       buyerIndex := HandOver(s.buyerIndex, paymentId, p.buyer, to))
  }

  /** Removes `paymentId` from `from`'s list and appends it to `to`'s. */
  function HandOver(index: map<Address, seq<string>>, paymentId: string, from: Address, to: Address)
    : (index': map<Address, seq<string>>)
    requires from != to
    ensures paymentId !in Holdings(index', from) && paymentId in Holdings(index', to)
    ensures forall x {:trigger x in Holdings(index', from)} :: x != paymentId ==> (x in Holdings(index', from) <==> x in Holdings(index, from))
    ensures forall x {:trigger x in Holdings(index', to)} :: x != paymentId ==> (x in Holdings(index', to) <==> x in Holdings(index, to))
    ensures forall b {:trigger Holdings(index', b)} :: b != from && b != to ==> Holdings(index', b) == Holdings(index, b)
  {
    var fromIds := RemoveFromIndex(Holdings(index, from), paymentId);
    var toIds := AddToIndex(Holdings(index, to), paymentId);
    index[from := fromIds][to := toIds]
  }

  /** Handing an id over keeps every list duplicate-free. */
  lemma HandOverKeepsNoDuplicates(index: map<Address, seq<string>>, paymentId: string, from: Address, to: Address)
    requires from != to
    ensures (forall b :: b in index ==> NoDuplicates(index[b])) ==>
            var index' := HandOver(index, paymentId, from, to);
            forall b :: b in index' ==> NoDuplicates(index'[b])
  {
    if forall b :: b in index ==> NoDuplicates(index[b]) {
      var index' := HandOver(index, paymentId, from, to);
      assert NoDuplicates(Holdings(index, from)) && NoDuplicates(Holdings(index, to));
      forall b | b in index'
        ensures NoDuplicates(index'[b])
      {
        assert index'[b] == Holdings(index', b);
        if b != from && b != to {
          assert Holdings(index', b) == Holdings(index, b);
        }
      }
    }
  }

  /**
    The holder of a confirmed ticket hands it to `to`. A positive transfer fee
    is pulled from the holder and credited wholly to the organizer's escrow.
   */
  function TransferTicket(s: State, env: Env, paymentId: string, to: Address): (r: Outcome<()>)
    ensures r.Ok? ==>
      && Initialized(s) && paymentId in s.payments
      && s.payments[paymentId].status == Confirmed
      && env.caller == s.payments[paymentId].buyer
      && to != s.payments[paymentId].buyer
    ensures Initialized(s) && paymentId !in s.payments ==> r == Err(PaymentNotFound)
    ensures Initialized(s) && paymentId in s.payments && s.payments[paymentId].status != Confirmed ==>
      r == Err(InvalidPaymentStatus)
    ensures Initialized(s) && paymentId in s.payments && s.payments[paymentId].status == Confirmed
            && env.caller == s.payments[paymentId].buyer && to != s.payments[paymentId].buyer ==>
      var fee := TransferFeeOf(s, s.payments[paymentId].eventId);
      (r.Ok? <==> (fee > 0 ==> InI128(BalanceOf(s, s.payments[paymentId].eventId).organizerAmount + fee)))
    ensures Initialized(s) && paymentId in s.payments && s.payments[paymentId].status == Confirmed
            && env.caller == s.payments[paymentId].buyer && to == s.payments[paymentId].buyer ==>
      r == Err(InvalidAddress)
    ensures r.Ok? ==>
      var p := s.payments[paymentId];
      && r.state.payments == s.payments[paymentId := p.(buyer := to)]
      && HandedOver(s.buyerIndex, r.state.buyerIndex, paymentId, p.buyer, to)
    ensures r.Ok? ==>
      var p := s.payments[paymentId];
      var fee := TransferFeeOf(s, p.eventId);
      var before := BalanceOf(s, p.eventId);
      var after := BalanceOf(r.state, p.eventId);
      && (fee > 0 ==> after.organizerAmount + after.totalWithdrawn == before.organizerAmount + before.totalWithdrawn + fee)
      && after.platformFee == before.platformFee && after.totalWithdrawn == before.totalWithdrawn
      && (fee <= 0 ==> r.state.balances == s.balances)
      && (fee > 0 ==> r.state.balances == s.balances[p.eventId := Credit(before, fee, 0)])
      && r.effects == (if fee > 0 then [TokenTransferFrom(s.config.value.usdcToken, p.buyer, env.contract, fee)] else [])
    ensures r.Ok? ==>
      r.state.config == s.config && r.state.whitelist == s.whitelist && r.state.transferFees == s.transferFees
    ensures r.Ok? && IndexesWellFormed(s) ==> IndexesWellFormed(r.state)
  {
    if !Initialized(s) then Abort(ContractNotInitialized)
    else if paymentId !in s.payments then Err(PaymentNotFound)
    else
      var p := s.payments[paymentId];
      if p.status != Confirmed then Err(InvalidPaymentStatus)
      else if env.caller != p.buyer then Abort(NotAuthorized(p.buyer))
      else if p.buyer == to then Err(InvalidAddress)
      else
        var fee := TransferFeeOf(s, p.eventId);
        var before := BalanceOf(s, p.eventId);
        if fee > 0 && !InI128(before.organizerAmount + fee) then Abort(Overflow)
        else
          if fee > 0 then
            var charged := s.(balances := s.balances[p.eventId := Credit(before, fee, 0)]);
            Ok(MoveTicket(charged, paymentId, p, to), (),
               [TokenTransferFrom(s.config.value.usdcToken, p.buyer, env.contract, fee)])
          else
            Ok(MoveTicket(s, paymentId, p, to), (), [])
  }
}

=== FILE: ticket_payment_props.dfy ===
/**
  Properties of the ticket payment contract that relate several calls: the
  storage invariant every entry point keeps, the correspondence between the
  entry points and the escrow transitions, and the scenarios the contract
  supports (one-shot set-up, idempotent confirmation, refund rules,
  ticket hand-over and repeated withdrawals).
 */
module TicketPaymentProperties {
  import opened Common
  import opened RegistryTypes
  import opened Fees
  import opened Escrow
  import opened PaymentLedger
  import opened TicketPayment

  /**
    The storage invariant: no escrow counter is negative, no transfer fee is
    negative, no buyer lists an id twice and every payment sits under its own id.
   */
  predicate Valid(s: State)
  {
    && (forall e :: e in s.balances ==> NonNegative(s.balances[e]))
    && (forall e :: e in s.transferFees ==> s.transferFees[e] >= 0)
    && IndexesWellFormed(s)
    && KeyedById(s)
  }

  /** The registry only ever answers with fee rates of at most 100%. */
  predicate SaneEvent(event: Option<EventInfo>)
  {
    event.None? || event.value.platformFeeBps <= Bps
  }

  // ---------------------------------------------------------------------------
  // Traces of calls

  /** One invocation of an entry point that can change storage, with the host's and the oracles' answers. */
  datatype Call =
    | InitializeCall(env: Env, admin: Address, usdcToken: Address, platformWallet: Address, eventRegistry: Address)
    | AddTokenCall(env: Env, token: Address)
    | RemoveTokenCall(env: Env, token: Address)
    | ProcessPaymentCall(env: Env, paymentId: string, eventId: string, tierId: string, buyer: Address,
                         token: Address, amount: I128, quantity: U32, event: Option<EventInfo>,
                         allowance: int, received: int)
    | ConfirmPaymentCall(env: Env, paymentId: string, transactionHash: string)
    | RefundCall(env: Env, paymentId: string, event: Option<EventInfo>)
    | WithdrawOrganizerCall(env: Env, eventId: string, token: Address, event: Option<EventInfo>)
    | WithdrawPlatformCall(env: Env, eventId: string, token: Address)
    | SetTransferFeeCall(env: Env, eventId: string, amount: I128, event: Option<EventInfo>)
    | TransferTicketCall(env: Env, paymentId: string, to: Address)

  predicate SaneCall(c: Call)
  {
    !c.ProcessPaymentCall? || SaneEvent(c.event)
  }

  /** The storage a call leaves behind: its new state on success; a failed call is rolled back. */
  function Committed<T>(s: State, r: Outcome<T>): State
  {
    if r.Ok? then r.state else s
  }

  function Next(s: State, c: Call): State
  {
    match c
    case InitializeCall(env, admin, usdc, wallet, registry) => Committed(s, Initialize(s, env, admin, usdc, wallet, registry))
    case AddTokenCall(env, token) => Committed(s, AddToken(s, env, token))
    case RemoveTokenCall(env, token) => Committed(s, RemoveToken(s, env, token))
    case ProcessPaymentCall(env, paymentId, eventId, tierId, buyer, token, amount, quantity, event, allowance, received) =>
      Committed(s, ProcessPayment(s, env, paymentId, eventId, tierId, buyer, token, amount, quantity, event, allowance, received))
    case ConfirmPaymentCall(env, paymentId, hash) => Committed(s, ConfirmPayment(s, env, paymentId, hash))
    case RefundCall(env, paymentId, event) => Committed(s, RequestGuestRefund(s, env, paymentId, event))
    case WithdrawOrganizerCall(env, eventId, token, event) => Committed(s, WithdrawOrganizerFunds(s, env, eventId, token, event))
    case WithdrawPlatformCall(env, eventId, token) => Committed(s, WithdrawPlatformFees(s, env, eventId, token))
    case SetTransferFeeCall(env, eventId, amount, event) => Committed(s, SetTransferFee(s, env, eventId, amount, event))
    case TransferTicketCall(env, paymentId, to) => Committed(s, TransferTicket(s, env, paymentId, to))
  }

  function Replay(s: State, calls: seq<Call>): State
    decreases |calls|
  {
    if |calls| == 0 then s else Replay(Next(s, calls[0]), calls[1..])
  }

  // ---------------------------------------------------------------------------
  // The storage invariant

  lemma DeployedIsValid()
    ensures Valid(Deployed)
  {
  }

  /** Escrow entries stay non-negative when only `eventId`'s entry changes and it stays non-negative. */
  lemma BalancesStayNonNegative(s: State, s': State, eventId: string)
    requires forall e :: e in s.balances ==> NonNegative(s.balances[e])
    requires forall e :: e != eventId ==> BalanceOf(s', e) == BalanceOf(s, e)
    requires NonNegative(BalanceOf(s', eventId))
    ensures forall e :: e in s'.balances ==> NonNegative(s'.balances[e])
  {
    forall e | e in s'.balances ensures NonNegative(s'.balances[e]) {
      assert BalanceOf(s', e) == s'.balances[e];
      if e != eventId {
        assert NonNegative(BalanceOf(s, e));
      }
    }
  }

  /**
    A state whose indexes are well formed and whose transfer fees are those of
    a valid state is valid when it differs from that state in at most one
    escrow entry, kept non-negative.
   */
  lemma ValidFromParts(s: State, s': State, eventId: string)
    requires Valid(s)
    requires IndexesWellFormed(s') && KeyedById(s') && s'.transferFees == s.transferFees
    requires forall e :: e != eventId ==> BalanceOf(s', e) == BalanceOf(s, e)
    requires NonNegative(BalanceOf(s', eventId))
    ensures Valid(s')
  {
    BalancesStayNonNegative(s, s', eventId);
  }

  /** A non-negative balance credited with non-negative shares stays non-negative. */
  lemma CreditKeepsNonNegative(before: EventBalance, after: EventBalance, o: int, p: int)
    requires NonNegative(before) && o >= 0 && p >= 0
    requires after.organizerAmount + after.totalWithdrawn == before.organizerAmount + before.totalWithdrawn + o
    requires after.platformFee == before.platformFee + p && after.totalWithdrawn == before.totalWithdrawn
    ensures NonNegative(after)
  {
  }

  lemma ProcessPaymentKeepsValid(s: State, env: Env, paymentId: string, eventId: string, tierId: string,
                                 buyer: Address, token: Address, amount: I128, quantity: U32,
                                 event: Option<EventInfo>, allowance: int, received: int)
    requires Valid(s) && SaneEvent(event)
    ensures Valid(Committed(s, ProcessPayment(s, env, paymentId, eventId, tierId, buyer, token, amount, quantity,
                                              event, allowance, received)))
  {
    var r := ProcessPayment(s, env, paymentId, eventId, tierId, buyer, token, amount, quantity, event, allowance, received);
    if r.Ok? {
      MulNonNegative(amount, quantity as int);
      var split := SplitTotal(amount * quantity, event.value.platformFeeBps);
      assert NonNegative(BalanceOf(s, eventId));
      CreditKeepsNonNegative(BalanceOf(s, eventId), BalanceOf(r.state, eventId), split.organizerAmount, split.platformFee);
      ValidFromParts(s, r.state, eventId);
    }
  }

  /** Transfer fees stay non-negative when only `eventId`'s fee changes and it stays non-negative. */
  lemma FeesStayNonNegative(s: State, s': State, eventId: string)
    requires forall e :: e in s.transferFees ==> s.transferFees[e] >= 0
    requires forall e :: e != eventId ==> TransferFeeOf(s', e) == TransferFeeOf(s, e)
    requires TransferFeeOf(s', eventId) >= 0
    ensures forall e :: e in s'.transferFees ==> s'.transferFees[e] >= 0
  {
    forall e | e in s'.transferFees ensures s'.transferFees[e] >= 0 {
      assert TransferFeeOf(s', e) == s'.transferFees[e];
      if e != eventId {
        assert TransferFeeOf(s, e) >= 0;
      }
    }
  }

  lemma ConfirmPaymentKeepsValid(s: State, env: Env, paymentId: string, transactionHash: string)
    requires Valid(s)
    ensures Valid(Committed(s, ConfirmPayment(s, env, paymentId, transactionHash)))
  {
  }

  lemma RequestGuestRefundKeepsValid(s: State, env: Env, paymentId: string, event: Option<EventInfo>)
    requires Valid(s)
    ensures Valid(Committed(s, RequestGuestRefund(s, env, paymentId, event)))
  {
    var r := RequestGuestRefund(s, env, paymentId, event);
    if r.Ok? {
      assert s.payments[paymentId].paymentId == paymentId;
    }
  }

  /** A state that differs from a valid one only in one event's escrow entry, kept non-negative, is valid. */
  lemma ValidAfterEscrowUpdate(s: State, s': State, eventId: string)
    requires Valid(s)
    requires s'.payments == s.payments && s'.buyerIndex == s.buyerIndex && s'.transferFees == s.transferFees
    requires forall e :: e != eventId ==> BalanceOf(s', e) == BalanceOf(s, e)
    requires NonNegative(BalanceOf(s', eventId))
    ensures Valid(s')
  {
    BalancesStayNonNegative(s, s', eventId);
  }

  lemma WithdrawOrganizerFundsKeepsValid(s: State, env: Env, eventId: string, token: Address, event: Option<EventInfo>)
    requires Valid(s)
    ensures Valid(Committed(s, WithdrawOrganizerFunds(s, env, eventId, token, event)))
  {
    var r := WithdrawOrganizerFunds(s, env, eventId, token, event);
    if r.Ok? {
      assert NonNegative(BalanceOf(s, eventId));
      ValidAfterEscrowUpdate(s, r.state, eventId);
    }
  }

  lemma WithdrawPlatformFeesKeepsValid(s: State, env: Env, eventId: string, token: Address)
    requires Valid(s)
    ensures Valid(Committed(s, WithdrawPlatformFees(s, env, eventId, token)))
  {
    var r := WithdrawPlatformFees(s, env, eventId, token);
    if r.Ok? {
      assert NonNegative(BalanceOf(s, eventId));
      ValidAfterEscrowUpdate(s, r.state, eventId);
    }
  }

  lemma SetTransferFeeKeepsValid(s: State, env: Env, eventId: string, amount: I128, event: Option<EventInfo>)
    requires Valid(s)
    ensures Valid(Committed(s, SetTransferFee(s, env, eventId, amount, event)))
  {
    var r := SetTransferFee(s, env, eventId, amount, event);
    if r.Ok? {
      FeesStayNonNegative(s, r.state, eventId);
    }
  }

  /** Rewriting the record under `k` with one that carries `k` as its id keeps payments keyed by id. */
  lemma KeyedAfterRewrite(s: State, s': State, k: string, v: Payment)
    requires KeyedById(s) && s'.payments == s.payments[k := v] && v.paymentId == k
    ensures KeyedById(s')
  {
  }

  lemma TransferTicketKeepsValid(s: State, env: Env, paymentId: string, to: Address)
    requires Valid(s)
    ensures Valid(Committed(s, TransferTicket(s, env, paymentId, to)))
  {
    var r := TransferTicket(s, env, paymentId, to);
    if r.Ok? {
      var p := s.payments[paymentId];
      assert p.paymentId == paymentId;
      KeyedAfterRewrite(s, r.state, paymentId, p.(buyer := to));
      var fee := TransferFeeOf(s, p.eventId);
      var before := BalanceOf(s, p.eventId);
      var after := BalanceOf(r.state, p.eventId);
      assert NonNegative(before);
      if fee > 0 {
        CreditKeepsNonNegative(before, after, fee, 0);
      }
      ValidFromParts(s, r.state, p.eventId);
    }
  }

  /** Every committed call keeps the storage invariant. */
  lemma NextKeepsValid(s: State, c: Call)
    requires Valid(s) && SaneCall(c)
    ensures Valid(Next(s, c))
  {
    match c
    case InitializeCall(env, admin, usdc, wallet, registry) =>
    case AddTokenCall(env, token) =>
    case RemoveTokenCall(env, token) =>
    case ProcessPaymentCall(env, paymentId, eventId, tierId, buyer, token, amount, quantity, event, allowance, received) =>
      ProcessPaymentKeepsValid(s, env, paymentId, eventId, tierId, buyer, token, amount, quantity, event, allowance, received);
    case ConfirmPaymentCall(env, paymentId, hash) => ConfirmPaymentKeepsValid(s, env, paymentId, hash);
    case RefundCall(env, paymentId, event) => RequestGuestRefundKeepsValid(s, env, paymentId, event);
    case WithdrawOrganizerCall(env, eventId, token, event) => WithdrawOrganizerFundsKeepsValid(s, env, eventId, token, event);
    case WithdrawPlatformCall(env, eventId, token) => WithdrawPlatformFeesKeepsValid(s, env, eventId, token);
    case SetTransferFeeCall(env, eventId, amount, event) => SetTransferFeeKeepsValid(s, env, eventId, amount, event);
    case TransferTicketCall(env, paymentId, to) => TransferTicketKeepsValid(s, env, paymentId, to);
  }

  /** From a freshly deployed contract, no sequence of calls breaks the storage invariant. */
  lemma {:induction false} ReplayKeepsValid(s: State, calls: seq<Call>)
    requires Valid(s)
    requires forall i :: 0 <= i < |calls| ==> SaneCall(calls[i])
    ensures Valid(Replay(s, calls))
    decreases |calls|
  {
    if |calls| > 0 {
      NextKeepsValid(s, calls[0]);
      assert forall i :: 0 <= i < |calls[1..]| ==> calls[1..][i] == calls[i + 1];
      ReplayKeepsValid(Next(s, calls[0]), calls[1..]);
    }
  }

  // ---------------------------------------------------------------------------
  // Entry points as escrow transitions

  /** The escrow transition a committed call applies to event `e`'s entry, if any. */
  function EscrowStep(s: State, c: Call, e: string): Option<Step>
  {
    match c
    case ProcessPaymentCall(env, paymentId, eventId, tierId, buyer, token, amount, quantity, event, allowance, received) =>
      PurchaseStep(s, env, paymentId, eventId, tierId, buyer, token, amount, quantity, event, allowance, received, e)
    case WithdrawOrganizerCall(env, eventId, token, event) => OrganizerWithdrawalStep(s, env, eventId, token, event, e)
    case WithdrawPlatformCall(env, eventId, token) => PlatformWithdrawalStep(s, env, eventId, token, e)
    case TransferTicketCall(env, paymentId, to) => TransferStep(s, env, paymentId, to, e)
    case _ => None
  }

  function PurchaseStep(s: State, env: Env, paymentId: string, eventId: string, tierId: string,
                        buyer: Address, token: Address, amount: I128, quantity: U32,
                        event: Option<EventInfo>, allowance: int, received: int, e: string): Option<Step>
  {
    if ProcessPayment(s, env, paymentId, eventId, tierId, buyer, token, amount, quantity, event, allowance, received).Ok?
       && eventId == e
    then
      var split := SplitTotal(amount * quantity, event.value.platformFeeBps);
      Some(Deposit(split.organizerAmount, split.platformFee))
    else None
  }

  function OrganizerWithdrawalStep(s: State, env: Env, eventId: string, token: Address,
                                   event: Option<EventInfo>, e: string): Option<Step>
  {
    if WithdrawOrganizerFunds(s, env, eventId, token, event).Ok? && eventId == e
    then Some(OrganizerWithdrawal(ReleasePercent(event.value.milestonePlan, event.value.currentSupply)))
    else None
  }

  function PlatformWithdrawalStep(s: State, env: Env, eventId: string, token: Address, e: string): Option<Step>
  {
    if WithdrawPlatformFees(s, env, eventId, token).Ok? && eventId == e then Some(PlatformWithdrawal) else None
  }

  function TransferStep(s: State, env: Env, paymentId: string, to: Address, e: string): Option<Step>
  {
    if TransferTicket(s, env, paymentId, to).Ok? && s.payments[paymentId].eventId == e && TransferFeeOf(s, e) > 0
    then Some(Deposit(TransferFeeOf(s, e), 0))
    else None
  }

  function AsSteps(step: Option<Step>): seq<Step>
  {
    match step
    case None => []
    case Some(st) => [st]
  }

  /** The escrow transitions a sequence of calls applies to event `e`'s entry. */
  function EscrowSteps(s: State, calls: seq<Call>, e: string): seq<Step>
    decreases |calls|
  {
    if |calls| == 0 then []
    else
      AsSteps(EscrowStep(s, calls[0], e)) + EscrowSteps(Next(s, calls[0]), calls[1..], e)
  }

  /** An escrow entry after an optional transition. */
  function AfterStep(b: EventBalance, step: Option<Step>): EventBalance
  {
    match step
    case None => b
    case Some(st) => Apply(b, st)
  }

  lemma ProcessPaymentIsEscrowStep(s: State, env: Env, paymentId: string, eventId: string, tierId: string,
                                   buyer: Address, token: Address, amount: I128, quantity: U32,
                                   event: Option<EventInfo>, allowance: int, received: int, e: string)
    ensures BalanceOf(Committed(s, ProcessPayment(s, env, paymentId, eventId, tierId, buyer, token, amount, quantity,
                                                  event, allowance, received)), e)
         == AfterStep(BalanceOf(s, e), PurchaseStep(s, env, paymentId, eventId, tierId, buyer, token, amount, quantity,
                                                    event, allowance, received, e))
  {
    var r := ProcessPayment(s, env, paymentId, eventId, tierId, buyer, token, amount, quantity, event, allowance, received);
    if r.Ok? && eventId == e {
      var split := SplitTotal(amount * quantity, event.value.platformFeeBps);
      assert BalanceOf(r.state, e) == Credit(BalanceOf(s, e), split.organizerAmount, split.platformFee);
    }
  }

  /** A balance credited with `o` and `p` moved as the escrow's deposit step. */
  lemma CreditIsDepositStep(before: EventBalance, after: EventBalance, o: int, p: int)
    requires after.organizerAmount + after.totalWithdrawn == before.organizerAmount + before.totalWithdrawn + o
    requires after.platformFee == before.platformFee + p && after.totalWithdrawn == before.totalWithdrawn
    ensures after == AfterStep(before, Some(Deposit(o, p)))
  {
  }

  /** A balance that moved as a payout of `w` under percentage `pct` moved as the escrow's withdrawal step. */
  lemma PayoutIsWithdrawalStep(before: EventBalance, after: EventBalance, w: int, pct: nat)
    requires w == OrganizerPayout(before, pct)
    requires after.organizerAmount + after.totalWithdrawn == before.organizerAmount + before.totalWithdrawn
    requires after.totalWithdrawn == before.totalWithdrawn + w && after.platformFee == before.platformFee
    ensures after == AfterStep(before, Some(OrganizerWithdrawal(pct)))
  {
  }

  lemma WithdrawOrganizerFundsIsEscrowStep(s: State, env: Env, eventId: string, token: Address,
                                           event: Option<EventInfo>, e: string)
    ensures BalanceOf(Committed(s, WithdrawOrganizerFunds(s, env, eventId, token, event)), e)
         == AfterStep(BalanceOf(s, e), OrganizerWithdrawalStep(s, env, eventId, token, event, e))
  {
    var r := WithdrawOrganizerFunds(s, env, eventId, token, event);
    if r.Ok? && eventId == e {
      var pct := ReleasePercent(event.value.milestonePlan, event.value.currentSupply);
      assert OrganizerWithdrawalStep(s, env, eventId, token, event, e) == Some(OrganizerWithdrawal(pct));
      PayoutIsWithdrawalStep(BalanceOf(s, e), BalanceOf(r.state, e), r.value, pct);
    }
  }

  lemma WithdrawPlatformFeesIsEscrowStep(s: State, env: Env, eventId: string, token: Address, e: string)
    ensures BalanceOf(Committed(s, WithdrawPlatformFees(s, env, eventId, token)), e)
         == AfterStep(BalanceOf(s, e), PlatformWithdrawalStep(s, env, eventId, token, e))
  {
    var r := WithdrawPlatformFees(s, env, eventId, token);
    if r.Ok? && eventId == e {
      assert BalanceOf(r.state, e) == ClearPlatformFee(BalanceOf(s, e));
    }
  }

  /** A hand-over of a ticket of event `e` under a positive fee deposits the fee into `e`'s entry. */
  lemma TransferChargesEntry(s: State, env: Env, paymentId: string, to: Address, e: string)
    requires TransferTicket(s, env, paymentId, to).Ok?
    requires s.payments[paymentId].eventId == e && TransferFeeOf(s, e) > 0
    ensures BalanceOf(TransferTicket(s, env, paymentId, to).state, e)
         == AfterStep(BalanceOf(s, e), Some(Deposit(TransferFeeOf(s, e), 0)))
  {
    CreditIsDepositStep(BalanceOf(s, e), BalanceOf(TransferTicket(s, env, paymentId, to).state, e), TransferFeeOf(s, e), 0);
  }

  /** Any other hand-over leaves `e`'s entry as it was. */
  lemma TransferLeavesEntry(s: State, env: Env, paymentId: string, to: Address, e: string)
    requires TransferTicket(s, env, paymentId, to).Ok?
    requires s.payments[paymentId].eventId != e || TransferFeeOf(s, e) <= 0
    ensures BalanceOf(TransferTicket(s, env, paymentId, to).state, e) == BalanceOf(s, e)
  {
  }

  lemma TransferTicketIsEscrowStep(s: State, env: Env, paymentId: string, to: Address, e: string)
    ensures BalanceOf(Committed(s, TransferTicket(s, env, paymentId, to)), e)
         == AfterStep(BalanceOf(s, e), TransferStep(s, env, paymentId, to, e))
  {
    if TransferTicket(s, env, paymentId, to).Ok? {
      if s.payments[paymentId].eventId == e && TransferFeeOf(s, e) > 0 {
        TransferChargesEntry(s, env, paymentId, to, e);
      } else {
        TransferLeavesEntry(s, env, paymentId, to, e);
      }
    }
  }

  /** Each committed call moves event `e`'s escrow entry by exactly its escrow transition, or leaves it alone. */
  lemma NextIsEscrowStep(s: State, c: Call, e: string)
    ensures BalanceOf(Next(s, c), e) == AfterStep(BalanceOf(s, e), EscrowStep(s, c, e))
  {
    match c
    case ProcessPaymentCall(env, paymentId, eventId, tierId, buyer, token, amount, quantity, event, allowance, received) =>
      ProcessPaymentIsEscrowStep(s, env, paymentId, eventId, tierId, buyer, token, amount, quantity, event, allowance, received, e);
    case WithdrawOrganizerCall(env, eventId, token, event) => WithdrawOrganizerFundsIsEscrowStep(s, env, eventId, token, event, e);
    case WithdrawPlatformCall(env, eventId, token) => WithdrawPlatformFeesIsEscrowStep(s, env, eventId, token, e);
    case TransferTicketCall(env, paymentId, to) => TransferTicketIsEscrowStep(s, env, paymentId, to, e);
    case _ =>
  }

  /** Running an optional first transition and then `rest` is running their concatenation. */
  lemma RunAfterStep(b: EventBalance, step: Option<Step>, rest: seq<Step>)
    ensures Run(AfterStep(b, step), rest) == Run(b, AsSteps(step) + rest)
  {
    match step
    case None =>
      assert AsSteps(step) + rest == rest;
    case Some(st) =>
      assert (AsSteps(step) + rest)[1..] == rest;
  }

  /** Over any sequence of calls, an event's escrow entry evolves exactly as the escrow transitions say. */
  lemma {:induction false} ReplayIsEscrowRun(s: State, calls: seq<Call>, e: string)
    ensures BalanceOf(Replay(s, calls), e) == Run(BalanceOf(s, e), EscrowSteps(s, calls, e))
    decreases |calls|
  {
    if |calls| > 0 {
      var s1 := Next(s, calls[0]);
      var step := EscrowStep(s, calls[0], e);
      NextIsEscrowStep(s, calls[0], e);
      ReplayIsEscrowRun(s1, calls[1..], e);
      RunAfterStep(BalanceOf(s, e), step, EscrowSteps(s1, calls[1..], e));
    }
  }

  /**
    Escrow conservation at the contract level: whatever calls are made, an
    event's organizer funds held plus paid out grow by exactly the organizer
    shares and transfer fees credited, and by nothing else.
   */
  lemma ReplayConservesOrganizerFunds(s: State, calls: seq<Call>, e: string)
    ensures var b, b' := BalanceOf(s, e), BalanceOf(Replay(s, calls), e);
            b'.organizerAmount + b'.totalWithdrawn == b.organizerAmount + b.totalWithdrawn + Deposited(EscrowSteps(s, calls, e))
  {
    ReplayIsEscrowRun(s, calls, e);
    RunConservesOrganizerFunds(BalanceOf(s, e), EscrowSteps(s, calls, e));
  }

  // ---------------------------------------------------------------------------
  // Scenarios

  /** Set-up succeeds at most once, and leaves the USDC token whitelisted. */
  lemma InitializeOnlyOnce(s: State, env: Env, admin: Address, usdcToken: Address, platformWallet: Address,
                           eventRegistry: Address, env': Env, admin': Address, usdcToken': Address,
                           platformWallet': Address, eventRegistry': Address)
    requires Initialize(s, env, admin, usdcToken, platformWallet, eventRegistry).Ok?
    ensures var s' := Initialize(s, env, admin, usdcToken, platformWallet, eventRegistry).state;
            && IsTokenAllowed(s', usdcToken)
            && Initialize(s', env', admin', usdcToken', platformWallet', eventRegistry') == Err(AlreadyInitialized)
  {
  }

  /** Whitelisting a token and withdrawing it again leaves every other token's status as it was. */
  lemma AddThenRemoveToken(s: State, env: Env, token: Address)
    requires Initialized(s) && env.caller == s.config.value.admin
    ensures var r := RemoveToken(AddToken(s, env, token).state, env, token);
            && r.Ok? && !IsTokenAllowed(r.state, token)
            && (forall t :: t != token ==> (IsTokenAllowed(r.state, t) <==> IsTokenAllowed(s, t)))
            && r.state.(whitelist := s.whitelist) == s
  {
  }

  /**
    The order of the purchase guards: a non-positive amount or quantity traps
    before the registry or the token is consulted, whatever they would answer;
    then the whitelist, the total's range, the event's existence and activity
    and the allowance are checked, in that order.
   */
  lemma ProcessPaymentGuardOrder(s: State, env: Env, paymentId: string, eventId: string, tierId: string,
                                 buyer: Address, token: Address, amount: I128, quantity: U32,
                                 event: Option<EventInfo>, allowance: int, received: int,
                                 event': Option<EventInfo>, allowance': int, received': int)
    requires Initialized(s) && env.caller == buyer
    ensures amount <= 0 ==>
      ProcessPayment(s, env, paymentId, eventId, tierId, buyer, token, amount, quantity, event, allowance, received)
        == Abort(AmountNotPositive)
    ensures amount > 0 && quantity == 0 ==>
      ProcessPayment(s, env, paymentId, eventId, tierId, buyer, token, amount, quantity, event, allowance, received)
        == ProcessPayment(s, env, paymentId, eventId, tierId, buyer, token, amount, quantity, event', allowance', received')
        == Abort(QuantityNotPositive)
    ensures amount > 0 && quantity > 0 && !IsTokenAllowed(s, token) ==>
      ProcessPayment(s, env, paymentId, eventId, tierId, buyer, token, amount, quantity, event, allowance, received)
        == Err(TokenNotWhitelisted)
    ensures amount > 0 && quantity > 0 && IsTokenAllowed(s, token) && !InI128(amount * quantity) ==>
      ProcessPayment(s, env, paymentId, eventId, tierId, buyer, token, amount, quantity, event, allowance, received)
        == Err(ArithmeticError)
    ensures amount > 0 && quantity > 0 && IsTokenAllowed(s, token) && InI128(amount * quantity) ==>
      && (event.None? ==>
            ProcessPayment(s, env, paymentId, eventId, tierId, buyer, token, amount, quantity, event, allowance, received)
              == Err(EventNotFound))
      && (event.Some? && !event.value.isActive ==>
            ProcessPayment(s, env, paymentId, eventId, tierId, buyer, token, amount, quantity, event, allowance, received)
              == Err(EventInactive))
      && (event.Some? && event.value.isActive && InI128(amount * quantity * event.value.platformFeeBps)
          && allowance < amount * quantity ==>
            ProcessPayment(s, env, paymentId, eventId, tierId, buyer, token, amount, quantity, event, allowance, received)
              == Err(InsufficientAllowance))
  {
  }

  /**
    A single 10000-unit ticket at a 2.5% platform rate, on an event with no
    escrow yet: the escrow holds 9750 for the organizer and 250 for the
    platform, and the ticket's record carries the same split.
   */
  lemma PurchaseSplitScenario(s: State, env: Env, paymentId: string, eventId: string, tierId: string,
                              buyer: Address, token: Address, price: I128, quantity: U32, event: EventInfo)
    requires Initialized(s) && env.caller == buyer && IsTokenAllowed(s, token)
    requires eventId !in s.balances
    requires price == 10000 && quantity == 1
    requires event.isActive && event.platformFeeBps == 250
    ensures var r := ProcessPayment(s, env, paymentId, eventId, tierId, buyer, token, price, quantity, Some(event), price, price);
            && r.Ok?
            && BalanceOf(r.state, eventId) == EventBalance(9750, 0, 250)
  {
    var r := ProcessPayment(s, env, paymentId, eventId, tierId, buyer, token, price, quantity, Some(event), price, price);
    SplitExamples();
    assert r.Ok?;
    ProcessPaymentIsEscrowStep(s, env, paymentId, eventId, tierId, buyer, token, price, quantity, Some(event), price, price, eventId);
    var step := PurchaseStep(s, env, paymentId, eventId, tierId, buyer, token, price, quantity, Some(event), price, price, eventId);
    assert BalanceOf(Committed(s, r), eventId) == AfterStep(BalanceOf(s, eventId), step);
    assert step == Some(Deposit(9750, 250));
    assert BalanceOf(s, eventId) == Zero;
  }

  /** The record of that single ticket carries the same split. */
  lemma PurchaseRecordScenario(s: State, env: Env, paymentId: string, eventId: string, tierId: string,
                               buyer: Address, token: Address, price: I128, quantity: U32, event: EventInfo)
    requires Initialized(s) && env.caller == buyer && IsTokenAllowed(s, token)
    requires eventId !in s.balances
    requires price == 10000 && quantity == 1
    requires event.isActive && event.platformFeeBps == 250
    ensures var r := ProcessPayment(s, env, paymentId, eventId, tierId, buyer, token, price, quantity, Some(event), price, price);
            && r.Ok?
            && paymentId in r.state.payments
            && r.state.payments[paymentId].platformFee == 250
            && r.state.payments[paymentId].organizerAmount == 9750
            && r.state.payments[paymentId].status == Pending
  {
    var r := ProcessPayment(s, env, paymentId, eventId, tierId, buyer, token, price, quantity, Some(event), price, price);
    SplitExamples();
    assert r.Ok?;
    assert SubPaymentId(paymentId, quantity, 0) == paymentId;
    var split := SplitTotal(price * quantity, event.platformFeeBps);
    assert paymentId in r.state.payments
      && r.state.payments[paymentId].platformFee == PerTicket(split.platformFee, quantity)
      && r.state.payments[paymentId].organizerAmount == PerTicket(split.organizerAmount, quantity);
    assert split == FeeSplit(250, 9750);
    assert PerTicket(250, 1) == 250 && PerTicket(9750, 1) == 9750;
  }

  /** Storing a record that is already stored, and already indexed under its buyer, changes nothing. */
  lemma StorePaymentOfStored(s: State, p: Payment)
    requires p.paymentId in s.payments && s.payments[p.paymentId] == p
    requires p.paymentId in PaymentsOf(s, p.buyer)
    ensures StorePayment(s, p) == s
  {
    assert s.payments[p.paymentId := p] == s.payments;
    assert AddToIndex(PaymentsOf(s, p.buyer), p.paymentId) == PaymentsOf(s, p.buyer);
    assert p.buyer in s.buyerIndex;
    assert s.buyerIndex[p.buyer := PaymentsOf(s, p.buyer)] == s.buyerIndex;
  }

  /**
    A committed purchase is visible through the query entry points: the first
    ticket's record is Pending and listed for the buyer, every id listed
    before is still listed, and the event's escrow balance has grown by the
    purchase's split.
   */
  lemma PurchaseSeenThroughQueries(s: State, env: Env, paymentId: string, eventId: string, tierId: string,
                                   buyer: Address, token: Address, amount: I128, quantity: U32,
                                   event: Option<EventInfo>, allowance: int, received: int)
    requires ProcessPayment(s, env, paymentId, eventId, tierId, buyer, token, amount, quantity, event, allowance, received).Ok?
    ensures var r := ProcessPayment(s, env, paymentId, eventId, tierId, buyer, token, amount, quantity, event, allowance, received);
            var split := SplitTotal(amount * quantity, event.value.platformFeeBps);
            var first := SubPaymentId(paymentId, quantity, 0);
            var before, after := GetEventEscrowBalance(s, eventId), GetEventEscrowBalance(r.state, eventId);
            && GetPaymentStatus(r.state, first).Some?
            && GetPaymentStatus(r.state, first).value.status == Pending
            && GetPaymentStatus(r.state, first).value.buyer == buyer
            && first in GetBuyerPayments(r.state, buyer)
            && after.platformFee == before.platformFee + split.platformFee
            && after.organizerAmount + after.totalWithdrawn == before.organizerAmount + before.totalWithdrawn + split.organizerAmount
    ensures var r := ProcessPayment(s, env, paymentId, eventId, tierId, buyer, token, amount, quantity, event, allowance, received);
            forall b, x :: x in GetBuyerPayments(s, b) ==> x in GetBuyerPayments(r.state, b)
  {
  }

  /** Confirming a payment a second time with the same reference at the same time changes nothing. */
  lemma ConfirmPaymentIdempotent(s: State, env: Env, paymentId: string, transactionHash: string)
    requires Initialized(s) && KeyedById(s)
    ensures var s1 := ConfirmPayment(s, env, paymentId, transactionHash).state;
            ConfirmPayment(s1, env, paymentId, transactionHash) == Ok(s1, (), [])
  {
    var s1 := ConfirmPayment(s, env, paymentId, transactionHash).state;
    if paymentId in s.payments {
      var q := s1.payments[paymentId];
      assert q.paymentId == paymentId;
      assert q.status == Confirmed && q.confirmedAt == Some(env.now) && q.transactionHash == transactionHash;
      assert paymentId in PaymentsOf(s1, q.buyer);
      var t1 := StorePayment(s1, q.(status := Confirmed, confirmedAt := Some(env.now)));
      assert q.(status := Confirmed, confirmedAt := Some(env.now)) == q;
      StorePaymentOfStored(s1, q);
      assert t1 == s1;
      assert t1.payments[paymentId].(transactionHash := transactionHash) == q;
    }
  }

  /**
    Refund eligibility: once the payment, its holder, its status and its tier
    check out, the refund is refused exactly when the tier is not refundable
    and the event is still active; otherwise it succeeds.
   */
  lemma RefundEligibility(s: State, env: Env, paymentId: string, event: EventInfo)
    requires Initialized(s) && paymentId in s.payments
    requires env.caller == s.payments[paymentId].buyer
    requires s.payments[paymentId].status in {Pending, Confirmed}
    requires s.payments[paymentId].tierId in event.tiers
    ensures var tier := event.tiers[s.payments[paymentId].tierId];
            var r := RequestGuestRefund(s, env, paymentId, Some(event));
            && (r == Err(TicketNotRefundable) <==> !tier.isRefundable && event.isActive)
            && (r.Ok? <==> tier.isRefundable || !event.isActive)
  {
  }

  /** A refunded (or failed) payment cannot be refunded again, and a missing one is reported. */
  lemma RefundRejections(s: State, env: Env, paymentId: string, event: Option<EventInfo>)
    requires Initialized(s)
    ensures paymentId !in s.payments ==> RequestGuestRefund(s, env, paymentId, event) == Err(PaymentNotFound)
    ensures paymentId in s.payments && env.caller == s.payments[paymentId].buyer
            && s.payments[paymentId].status in {Refunded, Failed} ==>
      RequestGuestRefund(s, env, paymentId, event) == Err(InvalidPaymentStatus)
    ensures paymentId in s.payments && env.caller == s.payments[paymentId].buyer
            && s.payments[paymentId].status !in {Refunded, Failed} && event.Some?
            && s.payments[paymentId].tierId !in event.value.tiers ==>
      RequestGuestRefund(s, env, paymentId, event) == Err(TierNotFound)
  {
  }

  /** After a refund the ticket is Refunded, so an immediate second refund is refused. */
  lemma RefundOnlyOnce(s: State, env: Env, paymentId: string, event: Option<EventInfo>, env': Env, event': Option<EventInfo>)
    requires KeyedById(s) && RequestGuestRefund(s, env, paymentId, event).Ok?
    ensures var s1 := RequestGuestRefund(s, env, paymentId, event).state;
            && s1.payments[paymentId].status == Refunded
            && !RequestGuestRefund(s1, env', paymentId, event').Ok?
  {
  }

  /**
    The refund guard only looks at the current status, and `confirm_payment`
    lets any caller set a Refunded payment back to Confirmed. So a refund,
    a confirmation by anyone, and a second refund by the same holder with the
    same registry answer all succeed, and inventory is decremented twice.
   */
  lemma RefundAgainAfterReconfirmation(s: State, env: Env, paymentId: string, event: Option<EventInfo>,
                                       confirmer: Env, transactionHash: string, env': Env)
    requires KeyedById(s) && RequestGuestRefund(s, env, paymentId, event).Ok?
    requires env'.caller == env.caller
    ensures var r1 := RequestGuestRefund(s, env, paymentId, event);
            var c := ConfirmPayment(r1.state, confirmer, paymentId, transactionHash);
            && c.Ok? && c.state.payments[paymentId].status == Confirmed
            && var r2 := RequestGuestRefund(c.state, env', paymentId, event);
            && r2.Ok?
            && r1.effects == r2.effects == [DecrementInventory(s.payments[paymentId].eventId, s.payments[paymentId].tierId)]
  {
    var r1 := RequestGuestRefund(s, env, paymentId, event);
    assert KeyedById(r1.state);
  }

  /**
    With nothing new credited, a second organizer withdrawal succeeds and pays
    nothing. (It may still request a zero-amount transfer: when the held share
    ran out before the unlocked amount did, the second call reaches the
    transfer with a payout of 0.)
   */
  lemma SecondOrganizerWithdrawalPaysNothing(s: State, env: Env, eventId: string, token: Address, event: Option<EventInfo>)
    requires NonNegative(BalanceOf(s, eventId))
    requires WithdrawOrganizerFunds(s, env, eventId, token, event).Ok?
    ensures var s1 := WithdrawOrganizerFunds(s, env, eventId, token, event).state;
            var r := WithdrawOrganizerFunds(s1, env, eventId, token, event);
            r.Ok? && r.value == 0 && BalanceOf(r.state, eventId) == BalanceOf(s1, eventId)
  {
    var r1 := WithdrawOrganizerFunds(s, env, eventId, token, event);
    var pct := ReleasePercent(event.value.milestonePlan, event.value.currentSupply);
    var before := BalanceOf(s, eventId);
    var after := BalanceOf(r1.state, eventId);
    var w := r1.value;
    SecondPayoutIsZero(before, pct);
    assert after == PayOrganizer(before, w);
  }

  /** A second platform withdrawal pays nothing. */
  lemma SecondPlatformWithdrawalPaysNothing(s: State, env: Env, eventId: string, token: Address)
    requires WithdrawPlatformFees(s, env, eventId, token).Ok?
    ensures var s1 := WithdrawPlatformFees(s, env, eventId, token).state;
            var r := WithdrawPlatformFees(s1, env, eventId, token);
            r.Ok? && r.value == 0 && r.state == s1 && r.effects == []
  {
  }

  /** Handing an id over and straight back restores every holder's list, as a set of ids. */
  lemma HandedOverAndBack(i0: map<Address, seq<string>>, i1: map<Address, seq<string>>, i2: map<Address, seq<string>>,
                          paymentId: string, from: Address, to: Address)
    requires from != to
    requires HandedOver(i0, i1, paymentId, from, to) && HandedOver(i1, i2, paymentId, to, from)
    requires paymentId in Holdings(i0, from) && paymentId !in Holdings(i0, to)
    ensures forall b, x :: x in Holdings(i2, b) <==> x in Holdings(i0, b)
  {
    forall b, x ensures x in Holdings(i2, b) <==> x in Holdings(i0, b) {
      if b != from && b != to {
        assert Holdings(i2, b) == Holdings(i1, b) == Holdings(i0, b);
      }
    }
  }

  /** Overwriting a record and then writing the original back restores the map. */
  lemma RewriteRestores(m: map<string, Payment>, k: string, v: Payment)
    requires k in m
    ensures m[k := v][k := m[k]] == m
  {
  }

  /**
    Handing a ticket to someone and back restores the payment records and both
    holders' lists (as sets of ids).
   */
  lemma TransferRoundTrip(s: State, env: Env, env': Env, paymentId: string, to: Address)
    requires TransferTicket(s, env, paymentId, to).Ok?
    requires paymentId in PaymentsOf(s, env.caller) && paymentId !in PaymentsOf(s, to)
    requires env'.caller == to
    ensures var s1 := TransferTicket(s, env, paymentId, to).state;
            var r := TransferTicket(s1, env', paymentId, env.caller);
            r.Ok? ==>
              && r.state.payments == s.payments
              && (forall b, x :: x in PaymentsOf(r.state, b) <==> x in PaymentsOf(s, b))
  {
    var from := env.caller;
    var p := s.payments[paymentId];
    var s1 := TransferTicket(s, env, paymentId, to).state;
    assert s1.payments == s.payments[paymentId := p.(buyer := to)];
    var r := TransferTicket(s1, env', paymentId, from);
    if r.Ok? {
      assert r.state.payments == s1.payments[paymentId := p.(buyer := to).(buyer := from)];
      assert p.(buyer := to).(buyer := from) == p;
      RewriteRestores(s.payments, paymentId, p.(buyer := to));
      HandedOverAndBack(s.buyerIndex, s1.buyerIndex, r.state.buyerIndex, paymentId, from, to);
    }
  }

  /** With no transfer fee set for the event, the hand-back succeeds and the escrow is untouched. */
  lemma FeeFreeTransferRoundTrip(s: State, env: Env, env': Env, paymentId: string, to: Address)
    requires TransferTicket(s, env, paymentId, to).Ok?
    requires TransferFeeOf(s, s.payments[paymentId].eventId) <= 0
    requires env'.caller == to
    ensures var s1 := TransferTicket(s, env, paymentId, to).state;
            var r := TransferTicket(s1, env', paymentId, env.caller);
            r.Ok? && r.state.balances == s.balances && r.effects == []
  {
    var p := s.payments[paymentId];
    var s1 := TransferTicket(s, env, paymentId, to).state;
    assert s1.payments[paymentId] == p.(buyer := to);
    assert TransferFeeOf(s1, p.eventId) == TransferFeeOf(s, p.eventId);
  }
}
